=== FILE: README.md ===
# WhatsApp conversation webhook: a Dafny model

This project models the conversation core of the Danil AI WhatsApp backend. Each inbound Twilio webhook goes through these steps:

- the request form is validated;
- the sender number is normalized to a Mexican international key;
- the sender's stored transcript is loaded;
- a sender with no history gets a welcome message;
- any other sender gets a normal turn: the user message is stored, the language model is asked with the system prompt and the last nine history entries, and the reply is stored and sent back through Twilio.

The outbound sender (`respond`) is modelled too: its configuration checks, the cleaning and formatting of the destination number, and its choice of payload.

The model is pure. The conversations table is a `map<string, seq<Message>>`. Everything the environment decides is a parameter:

- whether each store read and write succeeds;
- the clock reading of each add;
- the model's reply;
- whether each Twilio delivery succeeds.

`HandleWebhook` maps the table, the request and these answers to three things: the new table, the HTTP outcome, and the trace of external calls in the order they happen: loads, every save attempt with whether the write succeeded, the model call, and deliveries with whether they succeeded.

Modules, one per file:

- `Wrappers`: `Option` and `Result`.
- `Text`: the Python string operations the source relies on: `isdigit`, `isspace`, `strip`, `lstrip('+')`, `"".join(s.split())` and the single-pass `replace(pat, "")`.
- `Phone`: `normalize_phone_number`.
- `Clock`: the offset rule of `get_current_timestamp`, both the stamp it writes and the stamp evidently intended (see Findings).
- `Conversations`: `get_conversation_history`, `save_conversation_history`, `add_message_to_conversation`.
- `WhatsApp`: the import-time configuration checks and `respond`.
- `Webhook`: `whatsapp_endpoint`.

Behaviour of the code that the model keeps as written, with the lemma that states it:

- A failed history load looks exactly like a new sender, so a known sender can be welcomed again (`Webhook.FailedLoadLooksNew`).
- The welcome branch replaces the answer to the sender's first message. That message is never stored, and the model is not asked (`Webhook.NewSenderNotAnswered`, `Webhook.FirstTwoMessages`).
- The model input is built from the history loaded before the user message was stored, so the message being answered is not part of it (`Webhook.KnownSenderAsksModel`, `Webhook.WelcomeFailureFallsThrough`).
- `add_message_to_conversation` reloads the history itself. When that load fails but the save works, the stored transcript is overwritten by the new message alone (`Conversations.AddMessageAfterFailedRead`, `Webhook.FailedAddLoadLosesTranscript`).
- A reply that cannot be delivered makes the request fail with 500, although both messages are already stored (`Webhook.DeliveryFailureAfterSaves`).
- `replace("whatsapp:", "")` makes one pass, so a cleaned number can still contain `whatsapp:` (`WhatsApp.FormatSinglePass`).
- `lstrip('+')` runs before the whitespace is deleted, so a `+` behind leading whitespace survives cleaning, and the destination gets `52` and a second `+` (`WhatsApp.SpaceBeforePlusSurvives`).

In these points a sounder design would behave differently, and the model follows the code:

- There is no per-key lock.
- A failed history load is not surfaced as a store error. It falls into the new-sender branch.
- The model call never fails: `gpt_without_functions` answers an apology text on error.
- A failed reply delivery is a 500, not a soft success.

## Model

| member | source | states |
|---|---|---|
| Clock.MexicoOffsetHours | backend/src/api/v1/endpoints/webhook.py:24-29 | the offset is -5 hours exactly in months 4 to 10 and -6 hours exactly in the other months |
| Clock.OffsetSwitchMonths | backend/src/api/v1/endpoints/webhook.py:26-29 | from one month to the next, December to January included, the offset changes only after March and after October |
| Clock.CurrentTimestamp | backend/src/api/v1/endpoints/webhook.py:18-34 | as written: the stamp is labelled UTC (offset 0) and shows the same wall-clock time as the correctly labelled Mexican stamp |
| Clock.StampMislabelled | backend/src/api/v1/endpoints/webhook.py:21-34 | as written, the stamp read back denotes an instant 5 to 6 hours before the moment it was taken, never that moment |
| Clock.MayNoonStamp | backend/src/api/v1/endpoints/webhook.py:21-34 | 12:00 UTC on 1 May 2024 is written as 07:00 labelled +00:00, while the corrected stamp is 07:00 labelled -05:00 and reads back as 12:00 UTC |
| Clock.LocalTimestamp | backend/src/api/v1/endpoints/webhook.py:21-34 | corrected: the stamp carries the month's offset, reading it back recovers the UTC moment, and local time is 5 to 6 hours behind UTC |
| Clock.StampsDifferInLabel | backend/src/api/v1/endpoints/webhook.py:21-34 | the stamp as written and the corrected one show the same time, and reading them back differs by exactly the month's offset |
| Text.Digits | backend/src/api/v1/endpoints/webhook.py:123 | only digits remain, and every digit of the input survives as often as it occurred |
| Text.DigitsAppend | backend/src/api/v1/endpoints/webhook.py:123 | the digits of a concatenation are the digits of the first part followed by those of the second, so digits keep their order |
| Text.Strip | backend/src/api/v1/endpoints/webhook.py:175 | the result is the piece of the input left after removing a leading and a trailing run of whitespace and nothing else; it is empty exactly when the input is all whitespace, and otherwise starts and ends with non-whitespace |
| Text.StripIdempotent | backend/src/api/v1/endpoints/webhook.py:175 | stripping twice is stripping once |
| Text.TrimLeft | backend/src/utils/whatsapp.py:64 | the result is a suffix of the input, every dropped character is a `+`, and the result does not start with `+` |
| Text.RemoveSpaces | backend/src/utils/whatsapp.py:65 | no whitespace remains, and every other character survives as often as it occurred |
| Text.RemoveSpacesAppend | backend/src/utils/whatsapp.py:65 | removing whitespace from a concatenation removes it from each part, so the other characters keep their order |
| Text.RemoveAll | backend/src/utils/whatsapp.py:64 | the result is no longer than the input, and an input in which the pattern's first character never occurs is unchanged |
| Text.RemoveAllChanges | backend/src/utils/whatsapp.py:64 | the input is left unchanged exactly when the pattern does not occur in it, and otherwise comes out strictly shorter |
| Text.RemoveAllSinglePass | backend/src/utils/whatsapp.py:64 | the removal makes one pass: an occurrence wrapped in the two halves of another leaves the pattern behind |
| Phone.Normalize | backend/src/api/v1/endpoints/webhook.py:120-133 | every input, even one without digits, yields a key: digits only, starting with the country code 52 |
| Phone.NormalizeCases | backend/src/api/v1/endpoints/webhook.py:123-133 | for the digits d of the input: a leading 0 gives "52" + d[1..], a leading 52 gives d, anything else gives "52" + d, and no digits give "52" |
| Phone.NormalizeFixedPoint | backend/src/api/v1/endpoints/webhook.py:120-133 | the strings the normalizer leaves unchanged are exactly the keys |
| Phone.NormalizeIdempotent | backend/src/api/v1/endpoints/webhook.py:120-133 | normalizing twice is the same as normalizing once |
| Phone.NormalizeDigitsOnly | backend/src/api/v1/endpoints/webhook.py:123 | only the digits of the input decide the key |
| Conversations.GetHistory | backend/src/api/v1/endpoints/webhook.py:36-52 | a working load returns the stored list, which is empty for a missing key; a failed load returns the empty list |
| Conversations.SaveHistory | backend/src/api/v1/endpoints/webhook.py:54-100 | it fails exactly when the write fails; on success the key maps to exactly the given list, it is an insert exactly when the key was absent, no key disappears, and every other key is unchanged |
| Conversations.AddMessage | backend/src/api/v1/endpoints/webhook.py:102-118 | it succeeds exactly when the save does; the saved list is the freshly loaded history plus one message with the given role and content stamped with the call's time as the code writes it (labelled UTC), and other keys keep their lists |
| Conversations.AddMessageFrame | backend/src/api/v1/endpoints/webhook.py:67-93 | an add leaves every other key's transcript unchanged |
| Conversations.AddMessageAppends | backend/src/api/v1/endpoints/webhook.py:102-115 | with a working load and save, the key's transcript becomes the old one plus the new message |
| Conversations.AddMessageAfterFailedRead | backend/src/api/v1/endpoints/webhook.py:106-114 | when the reload fails and the save works, the transcript becomes the new message alone, by an update if the key had messages |
| WhatsApp.FirstMissing | backend/src/utils/whatsapp.py:29-35 | it reports the first variable, in order, that is unset or empty, or none when all are set |
| WhatsApp.LoadConfig | backend/src/utils/whatsapp.py:22-45 | loading succeeds exactly when all three variables are set and the sender number starts with +1 or +52; otherwise the error names the first missing variable in order, and it is a bad-number error only when no variable is missing |
| WhatsApp.CleanNumber | backend/src/utils/whatsapp.py:63-65 | the cleaned number contains no whitespace and is no longer than the input |
| WhatsApp.CleanKeepsDigits | backend/src/utils/whatsapp.py:63-65 | cleaning keeps exactly the digits of the raw destination, in order |
| WhatsApp.SpaceBeforePlusSurvives | backend/src/utils/whatsapp.py:63-68 | for digits d, the destination " +" + d cleans to "+" + d and formats to `whatsapp:+52+` and d |
| WhatsApp.FormatShape | backend/src/utils/whatsapp.py:63-68 | every formatted destination starts with `whatsapp:+52` and has no whitespace after the `+` |
| WhatsApp.FormatCountryCode | backend/src/utils/whatsapp.py:66-68 | 52 is put in front exactly when the cleaned number does not already start with it |
| WhatsApp.FormatKey | backend/src/utils/whatsapp.py:64-68 | a normalized key, bare or already as `whatsapp:+` and the key, formats to `whatsapp:+` and the key |
| WhatsApp.FormatSinglePass | backend/src/utils/whatsapp.py:64-68 | the destination `whatswhatsapp:app:` cleans to `whatsapp:`, so the formatted number still contains the channel prefix |
| WhatsApp.BuildPayload | backend/src/utils/whatsapp.py:52-85 | the checks fail exactly when a credential is empty and name the first empty one of account SID, auth token and number; the sender is `whatsapp:` and the configured number; the destination is the formatted one; a non-empty media URL gives a media payload without body, and otherwise the body is the message |
| WhatsApp.Respond | backend/src/utils/whatsapp.py:47-93 | sending succeeds exactly when the checks pass and the network delivers; a failed credential check returns that check's own error, naming the credential; a delivery failure after passing checks is reported as such |
| WhatsApp.LoadedConfigSends | backend/src/utils/whatsapp.py:43-60 | a configuration that loaded always passes the credential checks of `respond`, with a sender in `whatsapp:+1` or `whatsapp:+52` form |
| Webhook.ParseForm | backend/src/api/v1/endpoints/webhook.py:170-187 | a request is valid exactly when the form is readable, `From` is non-empty and `Body` is not all whitespace; it then carries `From` as given and the stripped body; each invalid case has its own reason |
| Webhook.Recent | backend/src/api/v1/endpoints/webhook.py:248 | the window is the last min(9, n) entries of the history, in order |
| Webhook.RecentSlides | backend/src/api/v1/endpoints/webhook.py:248 | once nine entries are present, one more entry pushes out the oldest one |
| Webhook.ModelInput | backend/src/api/v1/endpoints/webhook.py:244-252 | the input is the system prompt followed by the last min(9, n) history entries as role and content, in order, at most ten turns in all |
| Webhook.HandleWebhook | backend/src/api/v1/endpoints/webhook.py:159-285 | the answer is 200, 400 or 500; it is 400 exactly for an invalid request, which touches nothing and calls nothing; a valid one starts with the history load; no other sender's transcript changes |
| Webhook.HandleNewSender | backend/src/api/v1/endpoints/webhook.py:199-235 | an empty loaded history sends a valid request into the welcome branch, after the one load |
| Webhook.HandleKnownSender | backend/src/api/v1/endpoints/webhook.py:199-273 | a non-empty loaded history sends a valid request into a normal turn with that history |
| Webhook.ConverseStatuses | backend/src/api/v1/endpoints/webhook.py:237-282 | a normal turn answers 200 or 500 |
| Webhook.ConverseOtherKeys | backend/src/api/v1/endpoints/webhook.py:237-265 | a normal turn changes no other sender's transcript |
| Webhook.ConverseNotNew | backend/src/api/v1/endpoints/webhook.py:273 | a normal turn's success never flags a new user |
| Webhook.ConverseSucceeds | backend/src/api/v1/endpoints/webhook.py:237-282 | a normal turn answers 200 exactly when both saves work and the reply passes the checks and is delivered |
| Webhook.ConverseUserSaveFails | backend/src/api/v1/endpoints/webhook.py:238-242 | a failed save of the user message is a 500 with the table unchanged; the trace holds the load and the failed write attempt, and the model is never asked |
| Webhook.ConverseAsksModel | backend/src/api/v1/endpoints/webhook.py:244-258 | after the user message is saved, the model is asked with the history passed in, as the third external call |
| Webhook.ConverseCalls | backend/src/api/v1/endpoints/webhook.py:237-265 | with both saves working, the external calls run load, save, model, load, save |
| Webhook.ConverseTranscript | backend/src/api/v1/endpoints/webhook.py:237-265 | with every store call working, the transcript grows by the user message and then the reply |
| Webhook.ConverseReplySaveFails | backend/src/api/v1/endpoints/webhook.py:260-282 | a failed save of the reply is a 500 that keeps the stored user message |
| Webhook.ConverseExtends | backend/src/api/v1/endpoints/webhook.py:237-265 | with every load working, a normal turn only extends the transcript |
| Webhook.ConverseAfterFailedUserLoad | backend/src/api/v1/endpoints/webhook.py:238-242 | a failed reload in the user add cuts the transcript, however long, to at most two messages |
| Webhook.ConverseFrame | backend/src/api/v1/endpoints/webhook.py:237-282 | a normal turn answers 200 or 500, never flags a new user, and changes no other sender |
| Webhook.WelcomeSaved | backend/src/api/v1/endpoints/webhook.py:209-231 | a working welcome save answers "Welcome message processed" with `is_new_user`, stores the welcome add's list and makes only the add's and the delivery's calls, whatever the delivery does |
| Webhook.WelcomeFallsThrough | backend/src/api/v1/endpoints/webhook.py:232-242 | a failed welcome save is recorded as a failed write attempt and continues as a normal turn with an empty history |
| Webhook.WelcomeExtends | backend/src/api/v1/endpoints/webhook.py:209-265 | with every load working, the welcome branch only extends the transcript |
| Webhook.WelcomeFrame | backend/src/api/v1/endpoints/webhook.py:209-282 | the welcome branch answers 200 or 500 and changes no other sender |
| Webhook.ConverseModelCalls | backend/src/api/v1/endpoints/webhook.py:237-258 | a normal turn asks the model once if the user message was saved, and never otherwise |
| Webhook.WelcomeModelCalls | backend/src/api/v1/endpoints/webhook.py:209-258 | the welcome branch asks the model only when the welcome save fails and the user save works |
| Webhook.AtMostOneModelCall | backend/src/api/v1/endpoints/webhook.py:159-285 | every request asks the model at most once, and an invalid one never |
| Webhook.NewSenderGetsWelcome | backend/src/api/v1/endpoints/webhook.py:209-231 | for a sender without a row, a working welcome save answers `is_new_user` and leaves exactly the welcome message stored |
| Webhook.NewSenderNotAnswered | backend/src/api/v1/endpoints/webhook.py:209-231 | on that path the model is not asked and no user message is stored |
| Webhook.FailedLoadLooksNew | backend/src/api/v1/endpoints/webhook.py:199-209 | when the history load fails, even a known sender is answered as a new user and gets the welcome appended |
| Webhook.WelcomeFailureFallsThrough | backend/src/api/v1/endpoints/webhook.py:232-258 | after a failed welcome save, the model sees the system prompt alone |
| Webhook.KnownSenderTranscript | backend/src/api/v1/endpoints/webhook.py:237-265 | a known sender's turn with every store call working grows the transcript by exactly the user body and then the reply |
| Webhook.KnownSenderAsksModel | backend/src/api/v1/endpoints/webhook.py:244-258 | a known sender's model input is built from the transcript as it was before the user message was saved |
| Webhook.KnownSenderStatus | backend/src/api/v1/endpoints/webhook.py:267-282 | with both saves working, a known sender gets 200 exactly when the reply is sent, and 500 otherwise |
| Webhook.AppendOnlyWhenLoadsSucceed | backend/src/api/v1/endpoints/webhook.py:199-265 | when every load works, a request never removes or rewrites stored messages |
| Webhook.FailedAddLoadLosesTranscript | backend/src/api/v1/endpoints/webhook.py:238-242 | a known sender whose user add cannot reload the history is left with at most the two new messages |
| Webhook.FirstTwoMessages | backend/src/api/v1/endpoints/webhook.py:209-258 | a new sender's second message is answered with the welcome text as the only history |
| Webhook.GreetedSenderAsksModel | backend/src/api/v1/endpoints/webhook.py:244-258 | a sender with one stored message has the model see the system prompt and that message |
| Webhook.DeliveryFailureAfterSaves | backend/src/api/v1/endpoints/webhook.py:267-282 | an undeliverable reply is a 500 although the user message and the reply are already stored |

## Left out

- Concurrency: each request is handled atomically and in sequence. The read-modify-write race between simultaneous requests for one sender is not modelled, and the code has no lock.
- The Supabase client, its query building, the `created_at`/`modified_at` columns and the exceptions it raises: each load and save is one boolean oracle answer.
- The language model (`gpt_without_functions`): its reply is a parameter. It never raises, so the model has no failure case for it. The `LLM_MODEL` variable is not modelled.
- Loading the system prompt from a file (webhook.py:136-154): the prompt is a parameter.
- The Twilio client and `messages.create`: delivery is a boolean oracle. The delivered payload is recorded in the trace.
- The real clock, `datetime` arithmetic and ISO-8601 rendering: a clock reading is its month and a number of seconds since the epoch. A stamp is the wall-clock seconds it shows and the offset it is labelled with. Stored messages carry the stamp as the code writes it, `Clock.CurrentTimestamp`; the corrected `Clock.LocalTimestamp` is stated beside it but is not stored (see Findings).
- Logging and the `finally` block: no effect on results.
- FastAPI routing, `.env` loading, CORS and the health endpoint.
- Text.Digits: `str.isdigit` also accepts non-ASCII digits (Arabic-Indic, superscripts and so on). The model keeps ASCII 0-9 only, so non-ASCII digits in a sender number are dropped rather than kept.
- Webhook.ParseForm: the 400 detail text is a reason tag, not the message string. Line 185 rewraps the missing-field errors into "Error processing form data: …", and only the status is modelled exactly.
- The 400 "Invalid phone number format" (webhook.py:193-195) cannot happen: `normalize_phone_number` is total, as `Phone.Normalize` shows, so the model has no such branch.
- Cleaning removes every `whatsapp:` occurrence: not a property of the code. `replace` makes one pass, and `WhatsApp.FormatSinglePass` proves a destination whose number part still holds the prefix.
- WhatsApp.CleanNumber: promises no whitespace, no growth and the same digits in the same order, but not that only digits remain. The code deletes whitespace after stripping `+`, so a `+` behind leading whitespace survives (`WhatsApp.SpaceBeforePlusSurvives`), as do letters and punctuation.
- `respond`'s `media_url` is never used by the handler, which always sends a text body. `WhatsApp.BuildPayload` models both payloads.

## Findings

| source | as written | input that shows it | evidently intended | confidence | as-written member | corrected member |
|---|---|---|---|---|---|---|
| backend/src/api/v1/endpoints/webhook.py:21-34 | `datetime.now(timezone.utc) + timedelta(hours=-5 or -6)` keeps the UTC time zone, so `isoformat()` writes Mexican wall-clock time labelled `+00:00` | 2024-05-01T12:00:00Z is stored as `2024-05-01T07:00:00+00:00`, which denotes 07:00 UTC, five hours early | the Mexican time labelled with its offset, `2024-05-01T07:00:00-05:00`, which denotes the moment the message was added | high (the docstring asks for Mexican time; `+ timedelta` leaves `tzinfo` alone); not executed | Clock.StampMislabelled | Clock.LocalTimestamp |

=== FILE: clock.dfy ===
/** The timestamp rule of `get_current_timestamp`: UTC shifted to Mexican
    local time, with an approximate daylight-saving window, both as written
    (the shifted time keeps the UTC label) and as evidently intended. The clock reading
    itself is a parameter and ISO-8601 rendering is not modelled. */
module Clock {

  type Month = m: int | 1 <= m <= 12 witness 1

  /** One reading of the UTC clock: its calendar month and its time. */
  datatype Instant = Instant(month: Month, seconds: int)

  /** A local timestamp: the shifted time and the offset it carries. */
  datatype Stamp = Stamp(seconds: int, offsetHours: int)

  const SecondsPerHour: int := 3600

  /** UTC-5 from April to October inclusive, UTC-6 in the other months. */
  function MexicoOffsetHours(month: Month): (h: int)
    ensures h == -5 <==> 4 <= month <= 10
    ensures h == -6 <==> month <= 3 || 11 <= month
  {
    if 4 <= month <= 10 then -5 else -6
  }

  /** The offset changes exactly twice a year, December to January included:
      after March and after October. */
  lemma OffsetSwitchMonths(month: Month)
    ensures MexicoOffsetHours(month) != MexicoOffsetHours(month % 12 + 1) <==> month == 3 || month == 10
  {
  }

  /** The instant a stamp denotes when its ISO-8601 text is read back:
      the written time minus the offset it is labelled with. */
  function UtcOf(t: Stamp): int {
    t.seconds - t.offsetHours * SecondsPerHour
  }

  /** `get_current_timestamp` as written: the UTC reading is shifted by the
      month's offset but keeps its UTC time zone, so the stamp shows Mexican
      wall-clock time labelled `+00:00`. */
  function CurrentTimestamp(now: Instant): (t: Stamp)
    ensures t.offsetHours == 0
    ensures t.seconds == LocalTimestamp(now).seconds
  {
    Stamp(now.seconds + MexicoOffsetHours(now.month) * SecondsPerHour, 0)
  }

  /** Read back, the stamp as written denotes an instant five or six hours
      before the moment it was taken, never that moment itself. */
  lemma StampMislabelled(now: Instant)
    ensures var back := UtcOf(CurrentTimestamp(now));
            && now.seconds - 6 * SecondsPerHour <= back <= now.seconds - 5 * SecondsPerHour
            && back != now.seconds
  {
  }

  /** 2024-05-01T12:00:00Z (1714564800 seconds after the epoch) is written
      as `2024-05-01T07:00:00+00:00`, which reads back as 07:00 UTC; the
      corrected stamp `2024-05-01T07:00:00-05:00` reads back as 12:00 UTC. */
  lemma MayNoonStamp()
    ensures var now := Instant(5, 1714564800);
            && CurrentTimestamp(now) == Stamp(1714546800, 0)
            && UtcOf(CurrentTimestamp(now)) == 1714546800
            && LocalTimestamp(now) == Stamp(1714546800, -5)
            && UtcOf(LocalTimestamp(now)) == now.seconds
  {
  }

  /** The evidently intended stamp: Mexican wall-clock time labelled with
      the offset that produced it, so reading it back recovers the UTC
      moment, and the written time lies five or six hours behind UTC. */
  function LocalTimestamp(now: Instant): (t: Stamp)
    ensures t.offsetHours == MexicoOffsetHours(now.month)
    ensures UtcOf(t) == now.seconds
    ensures now.seconds - 6 * SecondsPerHour <= t.seconds <= now.seconds - 5 * SecondsPerHour
  {
    var offset := MexicoOffsetHours(now.month);
    Stamp(now.seconds + offset * SecondsPerHour, offset)
  }

  /** The corrected stamp differs from the one as written only in its
      label, and the label accounts exactly for the error of reading the
      written one back. */
  lemma StampsDifferInLabel(now: Instant)
    ensures CurrentTimestamp(now).seconds == LocalTimestamp(now).seconds
    ensures UtcOf(LocalTimestamp(now)) - UtcOf(CurrentTimestamp(now))
              == -MexicoOffsetHours(now.month) * SecondsPerHour
  {
  }
}

=== FILE: conversations.dfy ===
/** The transcript store of the webhook: `get_conversation_history`,
    `save_conversation_history` and `add_message_to_conversation`
    (backend/src/api/v1/endpoints/webhook.py). The `conversations` table is a
    map from conversation key to its full message list; whether each call to
    the table succeeds is an oracle supplied by the caller. */
module Conversations {
  import opened Wrappers
  import opened Clock

  datatype Role = System | User | Assistant

  /** One transcript entry: `{role, content, timestamp}`. */
  datatype Message = Message(role: Role, content: string, timestamp: Stamp)

  /** The `conversations` table: one row per key, holding its messages. */
  type Store = map<string, seq<Message>>

  /** What the environment does with one add: whether the history read
      succeeds, whether the save succeeds, and what the clock reads. */
  datatype StoreCall = StoreCall(readOk: bool, writeOk: bool, now: Instant)

  /** The save path taken: a new row, or an update of the existing row. */
  datatype WriteKind = Inserted | Updated

  /** A save that raised (lookup, update or insert failed). */
  datatype StoreError = WriteFailed

  datatype Saved = Saved(store: Store, kind: WriteKind)

  /** The result of an add: the new table, the list that was written, and
      which save path wrote it. */
  datatype Added = Added(store: Store, messages: seq<Message>, kind: WriteKind)

  /** The messages stored under `key`, empty when there is no row. */
  function Stored(store: Store, key: string): seq<Message> {
    if key in store then store[key] else []
  }

  /** Loads the stored list; a missing row and a failed query both yield the
      empty list. */
  function GetHistory(store: Store, key: string, readOk: bool): (h: seq<Message>)
    ensures readOk ==> h == Stored(store, key)
    ensures !readOk ==> h == []
    ensures h != [] ==> key in store && h == store[key]
  {
    if readOk && key in store then store[key] else []
  }

  /** Replaces the whole message list of `key`: an update when a row exists,
      an insert otherwise. On failure nothing changes and the error is raised. */
  function SaveHistory(store: Store, key: string, messages: seq<Message>, writeOk: bool): (r: Result<Saved, StoreError>)
    ensures r.Ok? <==> writeOk
    ensures r.Ok? ==> && key in r.value.store
                      && r.value.store[key] == messages
                      && r.value.store.Keys == store.Keys + {key}
                      && (forall k :: k in store && k != key ==> r.value.store[k] == store[k])
                      && (r.value.kind == Inserted <==> key !in store)
  {
    if !writeOk then Err(WriteFailed)
    else if key in store then Ok(Saved(store[key := messages], Updated))
    else Ok(Saved(store[key := messages], Inserted))
  }

  /** The message an add appends, stamped as `get_current_timestamp`
      writes it: Mexican wall-clock time of the call, labelled UTC. */
  function NewMessage(role: Role, content: string, now: Instant): Message {
    Message(role, content, CurrentTimestamp(now))
  }

  /** Loads the history again, appends one message and saves the whole list.
      The save is the only step that can fail; a failed load is not noticed
      and yields a list holding only the new message. */
  function AddMessage(store: Store, key: string, role: Role, content: string, call: StoreCall): (r: Result<Added, StoreError>)
    ensures r.Ok? <==> call.writeOk
    ensures r.Ok? ==> && |r.value.messages| >= 1
                      && r.value.messages[|r.value.messages| - 1] == NewMessage(role, content, call.now)
                      && r.value.messages[..|r.value.messages| - 1] == GetHistory(store, key, call.readOk)
                      && key in r.value.store
                      && r.value.store[key] == r.value.messages
                      && (forall k :: k in store && k != key ==> k in r.value.store && r.value.store[k] == store[k])
                      && r.value.store.Keys == store.Keys + {key}
  {
    var messages := AddedList(store, key, role, content, call);
    match SaveHistory(store, key, messages, call.writeOk)
    case Ok(saved) => Ok(Added(saved.store, messages, saved.kind))
    case Err(e) => Err(e)
  }

  /** The list an add tries to write: the freshly loaded history and the
      new message. */
  function AddedList(store: Store, key: string, role: Role, content: string, call: StoreCall): seq<Message> {
    GetHistory(store, key, call.readOk) + [NewMessage(role, content, call.now)]
  }

  /** A successful add sets the key to the list it wrote. */
  lemma AddMessageSaved(store: Store, key: string, role: Role, content: string, call: StoreCall)
    requires call.writeOk
    ensures AddMessage(store, key, role, content, call).Ok?
    ensures AddMessage(store, key, role, content, call).value.messages == AddedList(store, key, role, content, call)
    ensures AddMessage(store, key, role, content, call).value.store == store[key := AddedList(store, key, role, content, call)]
  {
  }

  /** An add changes no other key's transcript. */
  lemma AddMessageFrame(store: Store, key: string, role: Role, content: string, call: StoreCall)
    requires call.writeOk
    ensures var r := AddMessage(store, key, role, content, call);
            forall k :: k != key ==> Stored(r.value.store, k) == Stored(store, k)
  {
    var r := AddMessage(store, key, role, content, call);
    forall k | k != key ensures Stored(r.value.store, k) == Stored(store, k) {
      assert k in r.value.store <==> k in store;
    }
  }

  /** With a successful load and save, an add extends the key's transcript
      by exactly the new message: earlier entries are kept in place. */
  lemma AddMessageAppends(store: Store, key: string, role: Role, content: string, call: StoreCall)
    requires call.readOk && call.writeOk
    ensures var r := AddMessage(store, key, role, content, call);
            && r.Ok?
            && Stored(r.value.store, key) == Stored(store, key) + [NewMessage(role, content, call.now)]
            && (forall k :: k != key ==> Stored(r.value.store, k) == Stored(store, k))
  {
    AddMessageFrame(store, key, role, content, call);
  }

  /** An add whose load fails but whose save succeeds overwrites the key's
      transcript with the single new message, dropping what was stored. */
  lemma AddMessageAfterFailedRead(store: Store, key: string, role: Role, content: string, call: StoreCall)
    requires !call.readOk && call.writeOk
    ensures var r := AddMessage(store, key, role, content, call);
            && r.Ok?
            && Stored(r.value.store, key) == [NewMessage(role, content, call.now)]
            && (|Stored(store, key)| > 0 ==> r.value.kind == Updated)
  {
  }
}

=== FILE: phone.dfy ===
/** The sender-number normalizer of the webhook
    (`normalize_phone_number`, backend/src/api/v1/endpoints/webhook.py). */
module Phone {
  import opened Text

  /** Mexico's country calling code. */
  const CountryCode: string := "52"

  /** The national trunk prefix the normalizer replaces by the country code. */
  const TrunkPrefix: char := '0'

  /** A conversation key: digits only, led by the country code. */
  predicate IsKey(k: string) {
    StartsWith(k, CountryCode) && AllSatisfy(k, IsDigit)
  }

  /** Keeps the digits of `raw`; a leading trunk prefix becomes the country
      code, a leading country code stays, anything else gets the country code
      in front. Total: it never fails, even on input without digits. */
  function Normalize(raw: string): (k: string)
    ensures IsKey(k)
    ensures |k| >= |CountryCode|
  {
    var d := Digits(raw);
    if StartsWith(d, [TrunkPrefix]) then CountryCode + d[1..]
    else if StartsWith(d, CountryCode) then d
    else CountryCode + d
  }

  /** The three cases of the normalizer, in terms of the digits of the input;
      an input without digits maps to the bare country code. */
  lemma NormalizeCases(raw: string)
    ensures var d := Digits(raw);
            && (|d| > 0 && d[0] == '0' ==> Normalize(raw) == "52" + d[1..])
            && (|d| >= 2 && d[..2] == "52" ==> Normalize(raw) == d)
            && ((|d| == 0 || d[0] != '0') && !(|d| >= 2 && d[..2] == "52") ==> Normalize(raw) == "52" + d)
            && (d == [] ==> Normalize(raw) == "52")
  {
    var d := Digits(raw);
    if |d| > 0 {
      assert StartsWith(d, [TrunkPrefix]) <==> d[0] == '0';
    }
  }

  /** The keys are exactly the fixed points of the normalizer. */
  lemma NormalizeFixedPoint(x: string)
    ensures Normalize(x) == x <==> IsKey(x)
  {
    if IsKey(x) {
      NormalizeKeepsKey(x);
    }
  }

  lemma {:induction false} NormalizeKeepsKey(x: string)
    requires IsKey(x)
    ensures Normalize(x) == x
  {
    FilterKeepsAll(x, IsDigit);
    assert Digits(x) == x;
    assert !StartsWith(x, [TrunkPrefix]) by {
      assert x[0] == '5';
    }
  }

  /** Normalizing twice is normalizing once. */
  lemma NormalizeIdempotent(x: string)
    ensures Normalize(Normalize(x)) == Normalize(x)
  {
    NormalizeFixedPoint(Normalize(x));
  }

  /** Only the digits of the raw identifier matter: separators, spaces, a `+`
      or a channel prefix such as `whatsapp:` never change the key. */
  lemma NormalizeDigitsOnly(raw: string)
    ensures Normalize(raw) == Normalize(Digits(raw))
  {
    FilterKeepsAll(Digits(raw), IsDigit);
  }
}

=== FILE: text.dfy ===
/** The string primitives the source relies on: `str.isdigit`, `str.isspace`,
    `strip`, `lstrip`, `"".join(s.split())` and `replace(pattern, "")`. */
module Text {

  /** A decimal digit (ASCII only, see README). */
  predicate IsDigit(c: char) { '0' <= c <= '9' }

  /** Python's whitespace class: the characters `str.isspace` accepts, which
      are the ones `strip()` and `split()` remove. */
  predicate IsSpace(c: char) {
    || '\t' <= c <= '\r'
    || '\U{1c}' <= c <= ' '
    || c == '\U{85}' || c == '\U{a0}' || c == '\U{1680}'
    || '\U{2000}' <= c <= '\U{200a}'
    || c == '\U{2028}' || c == '\U{2029}' || c == '\U{202f}'
    || c == '\U{205f}' || c == '\U{3000}'
  }

  predicate NotSpace(c: char) { !IsSpace(c) }

  predicate IsPlus(c: char) { c == '+' }

  predicate AllSatisfy(s: string, p: char -> bool) {
    forall i :: 0 <= i < |s| ==> p(s[i])
  }

  /** `s.startswith(p)`. */
  predicate StartsWith(s: string, p: string) {
    |p| <= |s| && s[..|p|] == p
  }

  /** `''.join(filter(keep, s))`: the characters of `s` that `keep` accepts,
      in their original order. */
  function Filter(s: string, keep: char -> bool): (r: string)
    ensures |r| <= |s|
    ensures AllSatisfy(r, keep)
  {
    if s == [] then []
    else
      assert s == [s[0]] + s[1..];
      (if keep(s[0]) then [s[0]] else []) + Filter(s[1..], keep)
  }

  /** Filtering keeps every accepted character as often as it occurs. */
  lemma {:induction false} FilterCounts(s: string, keep: char -> bool, c: char)
    requires keep(c)
    ensures multiset(Filter(s, keep))[c] == multiset(s)[c]
  {
    if s != [] {
      assert s == [s[0]] + s[1..];
      FilterCounts(s[1..], keep, c);
    }
  }

  lemma FilterCountsAll(s: string, keep: char -> bool)
    ensures forall c :: keep(c) ==> multiset(Filter(s, keep))[c] == multiset(s)[c]
  {
    forall c | keep(c) ensures multiset(Filter(s, keep))[c] == multiset(s)[c] {
      FilterCounts(s, keep, c);
    }
  }

  /** Filtering a string whose every character is kept changes nothing. */
  lemma {:induction false} FilterKeepsAll(s: string, keep: char -> bool)
    requires AllSatisfy(s, keep)
    ensures Filter(s, keep) == s
  {
    if s != [] {
      assert AllSatisfy(s[1..], keep) by {
        forall i | 0 <= i < |s[1..]| ensures keep(s[1..][i]) {
          assert s[1..][i] == s[i + 1];
        }
      }
      FilterKeepsAll(s[1..], keep);
    }
  }

  /** Filtering distributes over concatenation, so the relative order of the
      kept characters is that of the input. */
  lemma {:induction false} FilterAppend(a: string, b: string, keep: char -> bool)
    ensures Filter(a + b, keep) == Filter(a, keep) + Filter(b, keep)
  {
    if a == [] {
      assert a + b == b;
    } else {
      var ab := a + b;
      assert ab[0] == a[0];
      assert ab[1..] == a[1..] + b;
      var head := if keep(a[0]) then [a[0]] else [];
      FilterAppend(a[1..], b, keep);
      var x, y := Filter(a[1..], keep), Filter(b, keep);
      assert Filter(ab, keep) == head + (x + y);
      assert Filter(a, keep) == head + x;
      assert head + (x + y) == (head + x) + y;
    }
  }

  /** `''.join(filter(str.isdigit, s))`. */
  function Digits(s: string): (d: string)
    ensures AllSatisfy(d, IsDigit)
    ensures forall c :: IsDigit(c) ==> multiset(d)[c] == multiset(s)[c]
  {
    FilterCountsAll(s, IsDigit);
    Filter(s, IsDigit)
  }

  /** The digits of a concatenation are the digits of each part, in order. */
  lemma DigitsAppend(a: string, b: string)
    ensures Digits(a + b) == Digits(a) + Digits(b)
  {
    FilterAppend(a, b, IsDigit);
  }

  /** Filtering with a weaker test first changes nothing. */
  lemma {:induction false} FilterFilter(s: string, outer: char -> bool, inner: char -> bool)
    requires forall c :: inner(c) ==> outer(c)
    ensures Filter(Filter(s, outer), inner) == Filter(s, inner)
  {
    if s != [] {
      var head := if outer(s[0]) then [s[0]] else [];
      FilterAppend(head, Filter(s[1..], outer), inner);
      FilterFilter(s[1..], outer, inner);
    }
  }

  /** Nothing survives a filter that rejects every character. */
  lemma {:induction false} FilterNone(s: string, keep: char -> bool)
    requires forall i :: 0 <= i < |s| ==> !keep(s[i])
    ensures Filter(s, keep) == []
  {
    if s != [] {
      FilterNone(s[1..], keep);
    }
  }

  /** `''.join(s.split())`: every whitespace character removed. */
  function RemoveSpaces(s: string): (r: string)
    ensures AllSatisfy(r, NotSpace)
    ensures forall c :: !IsSpace(c) ==> multiset(r)[c] == multiset(s)[c]
  {
    FilterCountsAll(s, NotSpace);
    Filter(s, NotSpace)
  }

  /** Trimming characters a filter rejects anyway does not change what the
      filter keeps. */
  lemma {:induction false} TrimLeftFilter(s: string, drop: char -> bool, keep: char -> bool)
    requires forall c :: drop(c) ==> !keep(c)
    ensures Filter(TrimLeft(s, drop), keep) == Filter(s, keep)
  {
    if s != [] && drop(s[0]) {
      TrimLeftFilter(s[1..], drop, keep);
    }
  }

  /** Whitespace removal distributes over concatenation: the other
      characters keep their order. */
  lemma RemoveSpacesAppend(a: string, b: string)
    ensures RemoveSpaces(a + b) == RemoveSpaces(a) + RemoveSpaces(b)
  {
    FilterAppend(a, b, NotSpace);
  }

  /** Removing whitespace never changes the digits. */
  lemma RemoveSpacesKeepsDigits(s: string)
    ensures Digits(RemoveSpaces(s)) == Digits(s)
  {
    FilterFilter(s, NotSpace, IsDigit);
  }

  /** `s.lstrip(chars)`: the longest suffix of `s` that does not start with
      a dropped character. */
  function TrimLeft(s: string, drop: char -> bool): (r: string)
    ensures |r| <= |s| && r == s[|s| - |r|..]
    ensures forall i :: 0 <= i < |s| - |r| ==> drop(s[i])
    ensures r == [] || !drop(r[0])
  {
    if s != [] && drop(s[0]) then TrimLeft(s[1..], drop) else s
  }

  /** `s.rstrip(chars)`: the longest prefix of `s` that does not end with a
      dropped character. */
  function TrimRight(s: string, drop: char -> bool): (r: string)
    ensures |r| <= |s| && r == s[..|r|]
    ensures forall i :: |r| <= i < |s| ==> drop(s[i])
    ensures r == [] || !drop(r[|r| - 1])
  {
    if s != [] && drop(s[|s| - 1]) then TrimRight(s[..|s| - 1], drop) else s
  }

  /** `s.strip(chars)`: a contiguous piece of `s`, empty exactly when every
      character of `s` is dropped, and otherwise starting and ending with a
      kept character. */
  function Trim(s: string, drop: char -> bool): (r: string)
    ensures r == [] <==> AllSatisfy(s, drop)
    ensures r != [] ==> !drop(r[0]) && !drop(r[|r| - 1])
    ensures exists i, j :: && 0 <= i <= j <= |s| && r == s[i..j]
                           && AllSatisfy(s[..i], drop) && AllSatisfy(s[j..], drop)
  {
    TrimEmpty(s, drop);
    TrimPiece(s, drop);
    TrimOuterLeft(s, drop);
    TrimOuterRight(s, drop);
    TrimRight(TrimLeft(s, drop), drop)
  }

  lemma TrimEmpty(s: string, drop: char -> bool)
    ensures TrimRight(TrimLeft(s, drop), drop) == [] ==> AllSatisfy(s, drop)
  {
    var left := TrimLeft(s, drop);
    if TrimRight(left, drop) == [] {
      // a non-empty `left` starts with a kept character, which TrimRight keeps
      assert left == [];
    }
  }

  lemma TrimPiece(s: string, drop: char -> bool)
    ensures var left := TrimLeft(s, drop);
            var r := TrimRight(left, drop);
            && (r != [] ==> !drop(r[0]))
            && r == s[|s| - |left|..|s| - |left| + |r|]
  {
    TrimPieceHead(s, drop);
    TrimPieceSlice(s, drop);
  }

  lemma TrimPieceHead(s: string, drop: char -> bool)
    ensures var r := TrimRight(TrimLeft(s, drop), drop);
            r != [] ==> !drop(r[0])
  {
    var left := TrimLeft(s, drop);
    var r := TrimRight(left, drop);
    if r != [] {
      assert r[0] == left[0];
    }
  }

  lemma TrimPieceSlice(s: string, drop: char -> bool)
    ensures var left := TrimLeft(s, drop);
            var r := TrimRight(left, drop);
            r == s[|s| - |left|..|s| - |left| + |r|]
  {
    var left := TrimLeft(s, drop);
    var r := TrimRight(left, drop);
    var k := |s| - |left|;
    assert left == s[k..];
    assert r == left[..|r|];
    assert s[k..][..|r|] == s[k..k + |r|];
  }

  /** What `lstrip` drops comes before the piece `Trim` keeps. */
  lemma TrimOuterLeft(s: string, drop: char -> bool)
    ensures AllSatisfy(s[..|s| - |TrimLeft(s, drop)|], drop)
  {
    var k := |s| - |TrimLeft(s, drop)|;
    forall i | 0 <= i < k ensures drop(s[..k][i]) {
      assert s[..k][i] == s[i];
    }
  }

  /** What `rstrip` drops comes after the piece `Trim` keeps. */
  lemma TrimOuterRight(s: string, drop: char -> bool)
    ensures var left := TrimLeft(s, drop);
            AllSatisfy(s[|s| - |left| + |TrimRight(left, drop)|..], drop)
  {
    var left := TrimLeft(s, drop);
    SuffixDropped(s, left, |TrimRight(left, drop)|, drop);
  }

  /** If `left` is a suffix of `s` whose characters from `n` on are all
      dropped, the matching suffix of `s` is all dropped too. */
  lemma SuffixDropped(s: string, left: string, n: nat, drop: char -> bool)
    requires |left| <= |s| && left == s[|s| - |left|..] && n <= |left|
    requires forall i :: n <= i < |left| ==> drop(left[i])
    ensures AllSatisfy(s[|s| - |left| + n..], drop)
  {
    var j := |s| - |left| + n;
    forall i | 0 <= i < |s| - j ensures drop(s[j..][i]) {
      assert s[j..][i] == left[n + i];
    }
  }

  /** `s.strip()`: the input with its leading and trailing whitespace, and
      nothing else, removed. */
  function Strip(s: string): (r: string)
    ensures r == [] <==> AllSatisfy(s, IsSpace)
    ensures r != [] ==> !IsSpace(r[0]) && !IsSpace(r[|r| - 1])
    ensures exists i, j :: && 0 <= i <= j <= |s| && r == s[i..j]
                           && AllSatisfy(s[..i], IsSpace) && AllSatisfy(s[j..], IsSpace)
  {
    Trim(s, IsSpace)
  }

  /** A string that neither starts nor ends with whitespace is left alone by
      `strip`, so stripping twice is stripping once. */
  lemma StripIdempotent(s: string)
    ensures Strip(Strip(s)) == Strip(s)
  {
    var r := Strip(s);
    if r != [] {
      assert TrimLeft(r, IsSpace) == r;
      assert TrimRight(r, IsSpace) == r;
    }
  }

  /** `s.replace(pat, "")`: one left-to-right pass deleting the
      non-overlapping occurrences of `pat`. */
  function RemoveAll(s: string, pat: string): (r: string)
    requires pat != []
    ensures |r| <= |s|
    ensures (forall i :: 0 <= i < |s| ==> s[i] != pat[0]) ==> r == s
    decreases |s|
  {
    if s == [] then []
    else if StartsWith(s, pat) then
      assert s == s[..|pat|] + s[|pat|..];
      RemoveAll(s[|pat|..], pat)
    else
      assert s == [s[0]] + s[1..];
      [s[0]] + RemoveAll(s[1..], pat)
  }

  /** `replace` leaves the string alone exactly when the pattern does not
      occur in it; otherwise it comes out strictly shorter. */
  lemma {:induction false} RemoveAllChanges(s: string, pat: string)
    requires pat != []
    ensures |RemoveAll(s, pat)| == |s| <==> !Contains(s, pat)
    ensures !Contains(s, pat) ==> RemoveAll(s, pat) == s
    decreases |s|
  {
    if s != [] {
      ContainsTail(s, pat);
      if !StartsWith(s, pat) {
        RemoveAllChanges(s[1..], pat);
        assert RemoveAll(s, pat) == [s[0]] + RemoveAll(s[1..], pat);
        if !Contains(s, pat) {
          assert [s[0]] + s[1..] == s;
        }
      }
    }
  }

  /** `pat in s`: an occurrence of `pat` starts somewhere in `s`. */
  predicate Contains(s: string, pat: string) {
    exists i :: 0 <= i < |s| && StartsWith(s[i..], pat)
  }

  /** An occurrence starts at the head or in the tail. */
  lemma ContainsTail(s: string, pat: string)
    requires s != []
    ensures Contains(s, pat) <==> StartsWith(s, pat) || Contains(s[1..], pat)
  {
    assert s[0..] == s;
    if Contains(s, pat) && !StartsWith(s, pat) {
      var i :| 0 <= i < |s| && StartsWith(s[i..], pat);
      assert s[1..][i - 1..] == s[i..];
    }
    if Contains(s[1..], pat) {
      var i :| 0 <= i < |s[1..]| && StartsWith(s[1..][i..], pat);
      assert s[1..][i..] == s[i + 1..];
    }
  }

  /** Deleting a pattern without digits never changes the digits. */
  lemma {:induction false} RemoveAllKeepsDigits(s: string, pat: string)
    requires pat != [] && Digits(pat) == []
    ensures Digits(RemoveAll(s, pat)) == Digits(s)
    decreases |s|
  {
    if s != [] {
      if StartsWith(s, pat) {
        assert s == pat + s[|pat|..];
        DigitsAppend(pat, s[|pat|..]);
        RemoveAllKeepsDigits(s[|pat|..], pat);
      } else {
        assert s == [s[0]] + s[1..];
        DigitsAppend([s[0]], s[1..]);
        DigitsAppend([s[0]], RemoveAll(s[1..], pat));
        RemoveAllKeepsDigits(s[1..], pat);
      }
    }
  }

  /** A leading occurrence of the pattern is deleted and the pass goes on
      after it. */
  lemma RemoveAllLeading(pat: string, s: string)
    requires pat != []
    ensures RemoveAll(pat + s, pat) == RemoveAll(s, pat)
  {
    assert (pat + s)[..|pat|] == pat;
    assert (pat + s)[|pat|..] == s;
  }

  lemma AllSatisfyAppend(a: string, b: string, p: char -> bool)
    requires AllSatisfy(a, p) && AllSatisfy(b, p)
    ensures AllSatisfy(a + b, p)
  {
    forall i | 0 <= i < |a + b| ensures p((a + b)[i]) {
      if i >= |a| {
        assert (a + b)[i] == b[i - |a|];
      }
    }
  }

  lemma StartsWithAppend(a: string, b: string, p: string)
    requires StartsWith(b, p)
    ensures StartsWith(a + b, a + p)
  {
    assert (a + b)[..|a + p|] == a + b[..|p|];
  }

  /** A head in which no occurrence of the pattern starts is kept as is. */
  lemma {:induction false} RemoveAllKeepsHead(head: string, rest: string, pat: string)
    requires pat != []
    requires forall i :: 0 <= i < |head| ==> !StartsWith((head + rest)[i..], pat)
    ensures RemoveAll(head + rest, pat) == head + RemoveAll(rest, pat)
  {
    if head == [] {
      assert head + rest == rest;
    } else {
      var s := head + rest;
      assert !StartsWith(s[0..], pat);
      assert s[0..] == s;
      assert s[1..] == head[1..] + rest;
      forall i | 0 <= i < |head[1..]| ensures !StartsWith((head[1..] + rest)[i..], pat) {
        assert (head[1..] + rest)[i..] == s[i + 1..];
      }
      RemoveAllKeepsHead(head[1..], rest, pat);
      assert RemoveAll(s, pat) == [s[0]] + RemoveAll(s[1..], pat);
      assert [head[0]] + (head[1..] + RemoveAll(rest, pat)) == head + RemoveAll(rest, pat);
    }
  }

  /** `replace` makes a single pass: when the first character of the pattern
      does not recur in it, an occurrence wrapped in the two halves of
      another occurrence is deleted, and what is left is the pattern again. */
  lemma RemoveAllSinglePass(pat: string, j: nat)
    requires 0 < j < |pat|
    requires forall k :: 0 < k < |pat| ==> pat[k] != pat[0]
    ensures RemoveAll(pat[..j] + pat + pat[j..], pat) == pat
  {
    var a, b := pat[..j], pat[j..];
    var rest := pat + b;
    var s := a + rest;
    assert pat[..j] + pat + pat[j..] == s;
    NoOccurrenceInHalf(pat, j);
    RemoveAllKeepsHead(a, rest, pat);
    RemoveAllLeading(pat, b);
    forall i | 0 <= i < |b| ensures b[i] != pat[0] {
      assert b[i] == pat[j + i];
    }
    assert RemoveAll(b, pat) == b;
    assert a + b == pat;
  }

  lemma NoOccurrenceInHalf(pat: string, j: nat)
    requires 0 < j < |pat|
    requires forall k :: 0 < k < |pat| ==> pat[k] != pat[0]
    ensures var s := pat[..j] + (pat + pat[j..]);
            forall i :: 0 <= i < j ==> !StartsWith(s[i..], pat)
  {
    var s := pat[..j] + (pat + pat[j..]);
    forall i | 0 <= i < j ensures !StartsWith(s[i..], pat) {
      if i == 0 {
        assert s[j] == pat[0];
      } else {
        assert s[i..][0] == pat[i];
      }
    }
  }
}

=== FILE: webhook.dfy ===
/** The inbound webhook (`whatsapp_endpoint`,
    backend/src/api/v1/endpoints/webhook.py): request validation, sender
    normalization, the history load, the welcome bootstrap for senders
    without history, and the normal turn - store the user message, ask the
    model, store and send its reply. The handler is a function from the
    table, the request and the environment's answers to the new table, the
    HTTP outcome and the sequence of external effects it caused. */
module Webhook {
  import opened Wrappers
  import opened Text
  import opened Phone
  import opened Conversations
  import opened WhatsApp

  const WelcomeMessage: string :=
    "¡Hola! Soy Danil, tu asistente virtual de Danil AI. ¿En qué puedo ayudarte hoy? \U{1F60A}"

  /** How many history entries accompany the system prompt. */
  const HistoryWindow: nat := 9

  const WelcomeProcessed: string := "Welcome message processed"
  const MessageProcessed: string := "Message processed successfully"

  /** A `{role, content}` entry of the model's input. */
  datatype ChatTurn = ChatTurn(role: Role, content: string)

  function TurnOf(m: Message): ChatTurn {
    ChatTurn(m.role, m.content)
  }

  /** The decoded form fields of the request. */
  type Form = map<string, string>

  /** A validated request: the raw sender and the stripped body. */
  datatype Inbound = Inbound(sender: string, body: string)

  /** Why a request was answered with an error status. */
  datatype Reason = FormUnreadable | MissingFrom | MissingBody | InternalError

  /** The endpoint's answer: a success body (with `is_new_user` only on the
      welcome path) or an `HTTPException`. */
  datatype Response = Processed(message: string, isNewUser: Option<bool>) | HttpError(status: int, reason: Reason)

  function Status(r: Response): int {
    match r
    case Processed(_, _) => 200
    case HttpError(status, _) => status
  }

  /** An external call made while handling a request: a history load, an
      attempt to save a full transcript with whether the write succeeded, a
      model call with its input, and a message handed to Twilio with whether
      delivery succeeded. */
  datatype Effect =
    | Fetch(key: string)
    | Save(key: string, messages: seq<Message>, written: bool)
    | Complete(input: seq<ChatTurn>)
    | Send(payload: Payload, delivered: bool)

  /** The environment's answers, in the order the handler asks for them: the
      history load, the welcome add and its delivery, the user add, the
      model's reply, the assistant add and the reply's delivery. The model
      call itself cannot fail: it answers an apology text on error. */
  datatype Oracle = Oracle(
    historyReadOk: bool,
    welcomeAdd: StoreCall,
    welcomeNetworkOk: bool,
    userAdd: StoreCall,
    reply: string,
    assistantAdd: StoreCall,
    replyNetworkOk: bool)

  datatype Handled = Handled(store: Store, response: Response, trace: seq<Effect>)

  /** `form_data.get(name, '')`. */
  function Field(form: Form, name: string): string {
    if name in form then form[name] else ""
  }

  /** Reads `From` as given and `Body` stripped; an unreadable form, an empty
      `From` or a blank `Body` is a 400 error, checked in that order. */
  function ParseForm(form: Option<Form>): (r: Result<Inbound, Reason>)
    ensures r.Ok? <==> form.Some? && Field(form.value, "From") != "" && !AllSatisfy(Field(form.value, "Body"), IsSpace)
    ensures r.Ok? ==> && r.value.sender == Field(form.value, "From")
                      && r.value.body == Strip(Field(form.value, "Body"))
                      && r.value.body != []
    ensures r.Err? ==> && r.error != InternalError
                       && (r.error == FormUnreadable <==> form.None?)
                       && (r.error == MissingFrom <==> form.Some? && Field(form.value, "From") == "")
  {
    match form
    case None => Err(FormUnreadable)
    case Some(fields) =>
      var sender := Field(fields, "From");
      var body := Strip(Field(fields, "Body"));
      if sender == "" then Err(MissingFrom)
      else if body == [] then Err(MissingBody)
      else Ok(Inbound(sender, body))
  }

  function Min(a: int, b: int): int {
    if a <= b then a else b
  }

  /** `history[-9:]`: the last nine entries, or all of them when fewer. */
  function Recent(history: seq<Message>): (w: seq<Message>)
    ensures |w| == Min(HistoryWindow, |history|)
    ensures w == history[|history| - |w|..]
  {
    if |history| <= HistoryWindow then history else history[|history| - HistoryWindow..]
  }

  /** Each message reduced to its role and content, in order. */
  function Turns(messages: seq<Message>): (turns: seq<ChatTurn>)
    ensures |turns| == |messages|
    ensures forall i :: 0 <= i < |turns| ==> turns[i] == TurnOf(messages[i])
  {
    if messages == [] then [] else [TurnOf(messages[0])] + Turns(messages[1..])
  }

  /** The model's input: the system prompt, then the most recent entries of
      `history` (at most nine), oldest first, as role and content. */
  function ModelInput(prompt: string, history: seq<Message>): (input: seq<ChatTurn>)
    ensures |input| == 1 + Min(HistoryWindow, |history|)
    ensures |input| <= HistoryWindow + 1
    ensures input[0] == ChatTurn(System, prompt)
    ensures forall i :: 1 <= i < |input| ==> input[i] == TurnOf(history[|history| - |input| + i])
  {
    [ChatTurn(System, prompt)] + Turns(Recent(history))
  }

  /** Once the window is full, one more entry pushes the oldest one out. */
  lemma RecentSlides(history: seq<Message>, m: Message)
    requires |history| >= HistoryWindow
    ensures Recent(history + [m]) == Recent(history)[1..] + [m]
  {
    var h := history + [m];
    assert h[|h| - HistoryWindow..] == history[|history| - HistoryWindow + 1..] + [m];
  }

  /** The effects of one add: its history load, then its attempt to save
      the extended list, which is made whether or not the write succeeds. */
  function AddEffects(store: Store, key: string, role: Role, content: string, call: StoreCall): seq<Effect> {
    [Fetch(key), Save(key, AddedList(store, key, role, content, call), call.writeOk)]
  }

  /** The effect of one `respond` call: the payload reaches the network only
      when the credential checks pass. */
  function SendEffects(cfg: TwilioConfig, key: string, text: string, networkOk: bool): seq<Effect> {
    match BuildPayload(cfg, key, text, None)
    case Ok(p) => [Send(p, networkOk)]
    case Err(_) => []
  }

  /** The normal turn: store the user message, ask the model with the
      history loaded at the start of the request, store the reply and send
      it. Any raised error is a 500, and what was saved before it stays. */
  function Converse(store: Store, key: string, body: string, history: seq<Message>,
                    prompt: string, cfg: TwilioConfig, o: Oracle): Handled
  {
    var u := AddMessage(store, key, User, body, o.userAdd);
    match u
    case Err(_) => Handled(store, HttpError(500, InternalError), AddEffects(store, key, User, body, o.userAdd))
    case Ok(afterUser) =>
      var a := AddMessage(afterUser.store, key, Assistant, o.reply, o.assistantAdd);
      var before := AddEffects(store, key, User, body, o.userAdd) + [Complete(ModelInput(prompt, history))]
                    + AddEffects(afterUser.store, key, Assistant, o.reply, o.assistantAdd);
      match a
      case Err(_) => Handled(afterUser.store, HttpError(500, InternalError), before)
      case Ok(afterReply) =>
        var trace := before + SendEffects(cfg, key, o.reply, o.replyNetworkOk);
        if Respond(cfg, key, o.reply, None, o.replyNetworkOk).Ok? then
          Handled(afterReply.store, Processed(MessageProcessed, None), trace)
        else
          Handled(afterReply.store, HttpError(500, InternalError), trace)
  }

  /** The welcome path: store the welcome text and try to send it, answering
      success with `is_new_user` whatever the delivery does. If the store
      raises, the request carries on as a normal turn with an empty history. */
  function Welcome(store: Store, key: string, body: string, prompt: string,
                   cfg: TwilioConfig, o: Oracle): Handled
  {
    var w := AddMessage(store, key, Assistant, WelcomeMessage, o.welcomeAdd);
    match w
    case Ok(added) =>
      Handled(added.store, Processed(WelcomeProcessed, Some(true)),
              AddEffects(store, key, Assistant, WelcomeMessage, o.welcomeAdd)
              + SendEffects(cfg, key, WelcomeMessage, o.welcomeNetworkOk))
    case Err(_) =>
      var c := Converse(store, key, body, [], prompt, cfg, o);
      Handled(c.store, c.response, AddEffects(store, key, Assistant, WelcomeMessage, o.welcomeAdd) + c.trace)
  }

  // Facts about one normal turn, one per lemma so that each proof unfolds
  // the turn once.

  lemma ConverseStatuses(store: Store, key: string, body: string, history: seq<Message>,
                         prompt: string, cfg: TwilioConfig, o: Oracle)
    ensures var c := Converse(store, key, body, history, prompt, cfg, o);
            Status(c.response) == 200 || Status(c.response) == 500
  {
  }

  lemma ConverseOtherKeys(store: Store, key: string, body: string, history: seq<Message>,
                          prompt: string, cfg: TwilioConfig, o: Oracle)
    ensures var c := Converse(store, key, body, history, prompt, cfg, o);
            forall k :: k != key ==> Stored(c.store, k) == Stored(store, k)
  {
    var u := AddMessage(store, key, User, body, o.userAdd);
    if u.Ok? {
      AddMessageFrame(store, key, User, body, o.userAdd);
      var a := AddMessage(u.value.store, key, Assistant, o.reply, o.assistantAdd);
      if a.Ok? {
        AddMessageFrame(u.value.store, key, Assistant, o.reply, o.assistantAdd);
      }
    }
  }

  lemma ConverseNotNew(store: Store, key: string, body: string, history: seq<Message>,
                       prompt: string, cfg: TwilioConfig, o: Oracle)
    ensures var c := Converse(store, key, body, history, prompt, cfg, o);
            c.response.Processed? ==> c.response == Processed(MessageProcessed, None)
  {
  }

  /** A normal turn answers 200 exactly when both saves succeed and the reply
      is delivered. */
  lemma ConverseSucceeds(store: Store, key: string, body: string, history: seq<Message>,
                         prompt: string, cfg: TwilioConfig, o: Oracle)
    ensures var c := Converse(store, key, body, history, prompt, cfg, o);
            Status(c.response) == 200 <==>
              o.userAdd.writeOk && o.assistantAdd.writeOk && Respond(cfg, key, o.reply, None, o.replyNetworkOk).Ok?
  {
  }

  /** When the user message cannot be saved the turn stops there: 500, the
      table unchanged, the failed write recorded, and the model never asked. */
  lemma ConverseUserSaveFails(store: Store, key: string, body: string, history: seq<Message>,
                              prompt: string, cfg: TwilioConfig, o: Oracle)
    requires !o.userAdd.writeOk
    ensures Converse(store, key, body, history, prompt, cfg, o)
              == Handled(store, HttpError(500, InternalError), [Fetch(key), Save(key, UserList(store, key, body, o), false)])
  {
  }

  /** After the user message is saved, the model is asked with the history
      passed in, as the third call of the turn. */
  lemma ConverseAsksModel(store: Store, key: string, body: string, history: seq<Message>,
                          prompt: string, cfg: TwilioConfig, o: Oracle)
    requires o.userAdd.writeOk
    ensures var c := Converse(store, key, body, history, prompt, cfg, o);
            |c.trace| > 2 && c.trace[2] == Complete(ModelInput(prompt, history))
  {
    var u := AddMessage(store, key, User, body, o.userAdd);
    assert u.Ok?;
    var a := AddMessage(u.value.store, key, Assistant, o.reply, o.assistantAdd);
    var call := Complete(ModelInput(prompt, history));
    var before := AddEffects(store, key, User, body, o.userAdd) + [call]
                  + AddEffects(u.value.store, key, Assistant, o.reply, o.assistantAdd);
    assert before[2] == call;
    var c := Converse(store, key, body, history, prompt, cfg, o);
    assert c.trace == before || c.trace == before + SendEffects(cfg, key, o.reply, o.replyNetworkOk);
  }

  /** The lists written by the two adds of a normal turn. */
  function UserList(store: Store, key: string, body: string, o: Oracle): seq<Message> {
    AddedList(store, key, User, body, o.userAdd)
  }

  function ReplyList(store: Store, key: string, body: string, o: Oracle): seq<Message> {
    AddedList(store[key := UserList(store, key, body, o)], key, Assistant, o.reply, o.assistantAdd)
  }

  /** With both saves successful, the key ends up holding the reply add's
      list. */
  lemma ConverseStore(store: Store, key: string, body: string, history: seq<Message>,
                      prompt: string, cfg: TwilioConfig, o: Oracle)
    requires o.userAdd.writeOk && o.assistantAdd.writeOk
    ensures Converse(store, key, body, history, prompt, cfg, o).store
              == store[key := UserList(store, key, body, o)][key := ReplyList(store, key, body, o)]
  {
    AddMessageSaved(store, key, User, body, o.userAdd);
    AddMessageSaved(store[key := UserList(store, key, body, o)], key, Assistant, o.reply, o.assistantAdd);
  }

  /** With both saves successful, the turn's calls run load, save, model,
      load, save. */
  lemma ConverseCalls(store: Store, key: string, body: string, history: seq<Message>,
                      prompt: string, cfg: TwilioConfig, o: Oracle)
    requires o.userAdd.writeOk && o.assistantAdd.writeOk
    ensures var c := Converse(store, key, body, history, prompt, cfg, o);
            && |c.trace| >= 5
            && c.trace[..5] == [Fetch(key), Save(key, UserList(store, key, body, o), true), Complete(ModelInput(prompt, history)),
                                Fetch(key), Save(key, ReplyList(store, key, body, o), true)]
  {
    AddMessageSaved(store, key, User, body, o.userAdd);
    var u := AddMessage(store, key, User, body, o.userAdd);
    AddMessageSaved(u.value.store, key, Assistant, o.reply, o.assistantAdd);
    var before := AddEffects(store, key, User, body, o.userAdd) + [Complete(ModelInput(prompt, history))]
                  + AddEffects(u.value.store, key, Assistant, o.reply, o.assistantAdd);
    assert |before| == 5;
    var c := Converse(store, key, body, history, prompt, cfg, o);
    assert c.trace[..5] == before;
  }

  /** With every store call working, a normal turn appends the user message
      and then the reply to the key's transcript. */
  lemma ConverseTranscript(store: Store, key: string, body: string, history: seq<Message>,
                           prompt: string, cfg: TwilioConfig, o: Oracle)
    requires o.userAdd.readOk && o.userAdd.writeOk && o.assistantAdd.readOk && o.assistantAdd.writeOk
    ensures Stored(Converse(store, key, body, history, prompt, cfg, o).store, key)
              == Stored(store, key) + [NewMessage(User, body, o.userAdd.now), NewMessage(Assistant, o.reply, o.assistantAdd.now)]
  {
    ConverseStore(store, key, body, history, prompt, cfg, o);
    var user := UserList(store, key, body, o);
    assert user == Stored(store, key) + [NewMessage(User, body, o.userAdd.now)];
    assert ReplyList(store, key, body, o) == user + [NewMessage(Assistant, o.reply, o.assistantAdd.now)];
  }

  /** When the reply cannot be saved the turn answers 500 and leaves the
      user add's list in place. */
  lemma ConverseReplySaveFails(store: Store, key: string, body: string, history: seq<Message>,
                               prompt: string, cfg: TwilioConfig, o: Oracle)
    requires o.userAdd.writeOk && !o.assistantAdd.writeOk
    ensures var c := Converse(store, key, body, history, prompt, cfg, o);
            c.response == HttpError(500, InternalError) && c.store == store[key := UserList(store, key, body, o)]
  {
    AddMessageSaved(store, key, User, body, o.userAdd);
  }

  /** With every load working, a normal turn only ever extends the key's
      transcript. */
  lemma ConverseExtends(store: Store, key: string, body: string, history: seq<Message>,
                        prompt: string, cfg: TwilioConfig, o: Oracle)
    requires o.userAdd.readOk && o.assistantAdd.readOk
    ensures Stored(store, key) <= Stored(Converse(store, key, body, history, prompt, cfg, o).store, key)
  {
    if !o.userAdd.writeOk {
      ConverseUserSaveFails(store, key, body, history, prompt, cfg, o);
    } else if !o.assistantAdd.writeOk {
      ConverseReplySaveFails(store, key, body, history, prompt, cfg, o);
    } else {
      ConverseTranscript(store, key, body, history, prompt, cfg, o);
    }
  }

  /** A user add whose load fails cuts the key's transcript, however long,
      down to the messages of this turn: at most two. */
  lemma ConverseAfterFailedUserLoad(store: Store, key: string, body: string, history: seq<Message>,
                                    prompt: string, cfg: TwilioConfig, o: Oracle)
    requires !o.userAdd.readOk && o.userAdd.writeOk
    ensures |Stored(Converse(store, key, body, history, prompt, cfg, o).store, key)| <= 2
  {
    assert |UserList(store, key, body, o)| == 1;
    if o.assistantAdd.writeOk {
      ConverseStore(store, key, body, history, prompt, cfg, o);
      assert |ReplyList(store, key, body, o)| <= 2;
    } else {
      ConverseReplySaveFails(store, key, body, history, prompt, cfg, o);
    }
  }

  lemma ConverseFrame(store: Store, key: string, body: string, history: seq<Message>,
                      prompt: string, cfg: TwilioConfig, o: Oracle)
    ensures var c := Converse(store, key, body, history, prompt, cfg, o);
            && (Status(c.response) == 200 || Status(c.response) == 500)
            && (c.response.Processed? ==> c.response == Processed(MessageProcessed, None))
            && (forall k :: k != key ==> Stored(c.store, k) == Stored(store, k))
  {
    ConverseStatuses(store, key, body, history, prompt, cfg, o);
    ConverseOtherKeys(store, key, body, history, prompt, cfg, o);
    ConverseNotNew(store, key, body, history, prompt, cfg, o);
  }

  /** A successful welcome save answers `is_new_user`, writes the welcome
      add's list and never asks the model. */
  lemma WelcomeSaved(store: Store, key: string, body: string, prompt: string, cfg: TwilioConfig, o: Oracle)
    requires o.welcomeAdd.writeOk
    ensures var w := Welcome(store, key, body, prompt, cfg, o);
            && w.response == Processed(WelcomeProcessed, Some(true))
            && w.store == store[key := AddedList(store, key, Assistant, WelcomeMessage, o.welcomeAdd)]
            && w.trace == [Fetch(key), Save(key, AddedList(store, key, Assistant, WelcomeMessage, o.welcomeAdd), true)]
                          + SendEffects(cfg, key, WelcomeMessage, o.welcomeNetworkOk)
  {
    AddMessageSaved(store, key, Assistant, WelcomeMessage, o.welcomeAdd);
  }

  /** A failed welcome save is recorded and falls through to a normal turn
      with an empty history. */
  lemma WelcomeFallsThrough(store: Store, key: string, body: string, prompt: string, cfg: TwilioConfig, o: Oracle)
    requires !o.welcomeAdd.writeOk
    ensures var c := Converse(store, key, body, [], prompt, cfg, o);
            Welcome(store, key, body, prompt, cfg, o)
              == Handled(c.store, c.response,
                         [Fetch(key), Save(key, AddedList(store, key, Assistant, WelcomeMessage, o.welcomeAdd), false)] + c.trace)
  {
    var w := AddMessage(store, key, Assistant, WelcomeMessage, o.welcomeAdd);
    assert w.Err?;
  }

  /** With every load working, the welcome path only ever extends the key's
      transcript. */
  lemma WelcomeExtends(store: Store, key: string, body: string, prompt: string, cfg: TwilioConfig, o: Oracle)
    requires o.welcomeAdd.readOk && o.userAdd.readOk && o.assistantAdd.readOk
    ensures Stored(store, key) <= Stored(Welcome(store, key, body, prompt, cfg, o).store, key)
  {
    if o.welcomeAdd.writeOk {
      WelcomeSaved(store, key, body, prompt, cfg, o);
    } else {
      WelcomeFallsThrough(store, key, body, prompt, cfg, o);
      ConverseExtends(store, key, body, [], prompt, cfg, o);
    }
  }

  lemma WelcomeFrame(store: Store, key: string, body: string, prompt: string, cfg: TwilioConfig, o: Oracle)
    ensures var w := Welcome(store, key, body, prompt, cfg, o);
            && (Status(w.response) == 200 || Status(w.response) == 500)
            && (forall k :: k != key ==> Stored(w.store, k) == Stored(store, k))
  {
    if o.welcomeAdd.writeOk {
      WelcomeSaved(store, key, body, prompt, cfg, o);
    } else {
      WelcomeFallsThrough(store, key, body, prompt, cfg, o);
      ConverseFrame(store, key, body, [], prompt, cfg, o);
    }
  }

  /** The sender of a valid request, as a conversation key. */
  function KeyOf(form: Option<Form>): string
    requires ParseForm(form).Ok?
  {
    Normalize(ParseForm(form).value.sender)
  }

  /** `whatsapp_endpoint`. A bad request is answered 400 before any external
      call; otherwise the history is loaded and an empty one (missing, or
      not loadable) takes the welcome path. Only the sender's transcript can
      change. */
  function HandleWebhook(store: Store, form: Option<Form>, prompt: string,
                         cfg: TwilioConfig, o: Oracle): (h: Handled)
    ensures Status(h.response) in {200, 400, 500}
    ensures Status(h.response) == 400 <==> ParseForm(form).Err?
    ensures Status(h.response) == 400 ==> h.store == store && h.trace == []
    ensures ParseForm(form).Ok? ==> |h.trace| > 0 && h.trace[0] == Fetch(KeyOf(form))
    ensures forall k :: (ParseForm(form).Err? || k != KeyOf(form)) ==> Stored(h.store, k) == Stored(store, k)
  {
    match ParseForm(form)
    case Err(reason) => Handled(store, HttpError(400, reason), [])
    case Ok(inbound) =>
      var key := Normalize(inbound.sender);
      var history := GetHistory(store, key, o.historyReadOk);
      ConverseFrame(store, key, inbound.body, history, prompt, cfg, o);
      WelcomeFrame(store, key, inbound.body, prompt, cfg, o);
      var rest :=
        if history == [] then Welcome(store, key, inbound.body, prompt, cfg, o)
        else Converse(store, key, inbound.body, history, prompt, cfg, o);
      Handled(rest.store, rest.response, [Fetch(key)] + rest.trace)
  }

  /** The body of a valid request. */
  function BodyOf(form: Option<Form>): string
    requires ParseForm(form).Ok?
  {
    ParseForm(form).value.body
  }

  /** A valid request whose history load comes back empty takes the welcome
      path, after the one load. */
  lemma HandleNewSender(store: Store, form: Option<Form>, prompt: string, cfg: TwilioConfig, o: Oracle)
    requires ParseForm(form).Ok?
    requires GetHistory(store, KeyOf(form), o.historyReadOk) == []
    ensures var w := Welcome(store, KeyOf(form), BodyOf(form), prompt, cfg, o);
            HandleWebhook(store, form, prompt, cfg, o) == Handled(w.store, w.response, [Fetch(KeyOf(form))] + w.trace)
  {
  }

  /** A valid request with a non-empty history runs a normal turn with that
      history, after the one load. */
  lemma HandleKnownSender(store: Store, form: Option<Form>, prompt: string, cfg: TwilioConfig, o: Oracle)
    requires ParseForm(form).Ok?
    requires GetHistory(store, KeyOf(form), o.historyReadOk) != []
    ensures var c := Converse(store, KeyOf(form), BodyOf(form), GetHistory(store, KeyOf(form), o.historyReadOk), prompt, cfg, o);
            HandleWebhook(store, form, prompt, cfg, o) == Handled(c.store, c.response, [Fetch(KeyOf(form))] + c.trace)
  {
  }

  /** How many times a trace asks the model. */
  function ModelCalls(trace: seq<Effect>): nat {
    if trace == [] then 0 else (if trace[0].Complete? then 1 else 0) + ModelCalls(trace[1..])
  }

  lemma {:induction false} ModelCallsAppend(a: seq<Effect>, b: seq<Effect>)
    ensures ModelCalls(a + b) == ModelCalls(a) + ModelCalls(b)
  {
    if a != [] {
      assert (a + b)[1..] == a[1..] + b;
      ModelCallsAppend(a[1..], b);
    } else {
      assert a + b == b;
    }
  }

  lemma StoreEffectsAskNothing(store: Store, key: string, role: Role, content: string, call: StoreCall)
    ensures ModelCalls(AddEffects(store, key, role, content, call)) == 0
  {
    var e := AddEffects(store, key, role, content, call);
    assert e[1..][1..] == [];
    assert ModelCalls(e[1..]) == 0;
  }

  lemma SendEffectsAskNothing(cfg: TwilioConfig, key: string, text: string, networkOk: bool)
    ensures ModelCalls(SendEffects(cfg, key, text, networkOk)) == 0
  {
  }

  /** A normal turn asks the model once if the user message was saved, and
      not at all otherwise. */
  lemma ConverseModelCalls(store: Store, key: string, body: string, history: seq<Message>,
                           prompt: string, cfg: TwilioConfig, o: Oracle)
    ensures ModelCalls(Converse(store, key, body, history, prompt, cfg, o).trace) == if o.userAdd.writeOk then 1 else 0
  {
    var u := AddMessage(store, key, User, body, o.userAdd);
    var ue := AddEffects(store, key, User, body, o.userAdd);
    StoreEffectsAskNothing(store, key, User, body, o.userAdd);
    if u.Ok? {
      var ae := AddEffects(u.value.store, key, Assistant, o.reply, o.assistantAdd);
      StoreEffectsAskNothing(u.value.store, key, Assistant, o.reply, o.assistantAdd);
      SendEffectsAskNothing(cfg, key, o.reply, o.replyNetworkOk);
      var call := [Complete(ModelInput(prompt, history))];
      ModelCallsAppend(ue, call);
      ModelCallsAppend(ue + call, ae);
      ModelCallsAppend(ue + call + ae, SendEffects(cfg, key, o.reply, o.replyNetworkOk));
    }
  }

  /** The welcome path asks the model only when the welcome save fails and
      the user message is saved instead. */
  lemma WelcomeModelCalls(store: Store, key: string, body: string, prompt: string, cfg: TwilioConfig, o: Oracle)
    ensures ModelCalls(Welcome(store, key, body, prompt, cfg, o).trace)
              == if !o.welcomeAdd.writeOk && o.userAdd.writeOk then 1 else 0
  {
    var w := AddMessage(store, key, Assistant, WelcomeMessage, o.welcomeAdd);
    var we := AddEffects(store, key, Assistant, WelcomeMessage, o.welcomeAdd);
    StoreEffectsAskNothing(store, key, Assistant, WelcomeMessage, o.welcomeAdd);
    if w.Ok? {
      SendEffectsAskNothing(cfg, key, WelcomeMessage, o.welcomeNetworkOk);
      ModelCallsAppend(we, SendEffects(cfg, key, WelcomeMessage, o.welcomeNetworkOk));
    } else {
      var c := Converse(store, key, body, [], prompt, cfg, o);
      ConverseModelCalls(store, key, body, [], prompt, cfg, o);
      ModelCallsAppend(we, c.trace);
    }
  }

  /** Every request asks the model at most once, and an invalid one never. */
  lemma AtMostOneModelCall(store: Store, form: Option<Form>, prompt: string, cfg: TwilioConfig, o: Oracle)
    ensures ModelCalls(HandleWebhook(store, form, prompt, cfg, o).trace) <= 1
    ensures ParseForm(form).Err? ==> ModelCalls(HandleWebhook(store, form, prompt, cfg, o).trace) == 0
  {
    if ParseForm(form).Ok? {
      if GetHistory(store, KeyOf(form), o.historyReadOk) == [] {
        NewSenderModelCalls(store, form, prompt, cfg, o);
      } else {
        KnownSenderModelCalls(store, form, prompt, cfg, o);
      }
    }
  }

  lemma NewSenderModelCalls(store: Store, form: Option<Form>, prompt: string, cfg: TwilioConfig, o: Oracle)
    requires ParseForm(form).Ok? && GetHistory(store, KeyOf(form), o.historyReadOk) == []
    ensures ModelCalls(HandleWebhook(store, form, prompt, cfg, o).trace) <= 1
  {
    var key := KeyOf(form);
    var w := Welcome(store, key, BodyOf(form), prompt, cfg, o);
    HandleNewSender(store, form, prompt, cfg, o);
    WelcomeModelCalls(store, key, BodyOf(form), prompt, cfg, o);
    ModelCallsAppend([Fetch(key)], w.trace);
  }

  lemma KnownSenderModelCalls(store: Store, form: Option<Form>, prompt: string, cfg: TwilioConfig, o: Oracle)
    requires ParseForm(form).Ok? && GetHistory(store, KeyOf(form), o.historyReadOk) != []
    ensures ModelCalls(HandleWebhook(store, form, prompt, cfg, o).trace) <= 1
  {
    var key := KeyOf(form);
    var history := GetHistory(store, key, o.historyReadOk);
    var c := Converse(store, key, BodyOf(form), history, prompt, cfg, o);
    HandleKnownSender(store, form, prompt, cfg, o);
    ConverseModelCalls(store, key, BodyOf(form), history, prompt, cfg, o);
    ModelCallsAppend([Fetch(key)], c.trace);
  }

  /** A sender with no stored transcript is greeted: the answer flags a new
      user and the transcript becomes the welcome text alone. */
  lemma NewSenderGetsWelcome(store: Store, form: Option<Form>, prompt: string, cfg: TwilioConfig, o: Oracle)
    requires ParseForm(form).Ok? && KeyOf(form) !in store
    requires o.welcomeAdd.writeOk
    ensures var h := HandleWebhook(store, form, prompt, cfg, o);
            && h.response == Processed(WelcomeProcessed, Some(true))
            && Stored(h.store, KeyOf(form)) == [NewMessage(Assistant, WelcomeMessage, o.welcomeAdd.now)]
  {
    var key := KeyOf(form);
    HandleNewSender(store, form, prompt, cfg, o);
    WelcomeSaved(store, key, BodyOf(form), prompt, cfg, o);
    assert GetHistory(store, key, o.welcomeAdd.readOk) == [];
  }

  /** The greeting replaces the answer to the sender's first message: the
      model is not asked and that message is not stored. */
  lemma NewSenderNotAnswered(store: Store, form: Option<Form>, prompt: string, cfg: TwilioConfig, o: Oracle)
    requires ParseForm(form).Ok? && KeyOf(form) !in store
    requires o.welcomeAdd.writeOk
    ensures var h := HandleWebhook(store, form, prompt, cfg, o);
            && ModelCalls(h.trace) == 0
            && forall i :: 0 <= i < |Stored(h.store, KeyOf(form))| ==> Stored(h.store, KeyOf(form))[i].role != User
  {
    NewSenderGetsWelcome(store, form, prompt, cfg, o);
    NewSenderSkipsModel(store, form, prompt, cfg, o);
  }

  lemma NewSenderSkipsModel(store: Store, form: Option<Form>, prompt: string, cfg: TwilioConfig, o: Oracle)
    requires ParseForm(form).Ok? && KeyOf(form) !in store
    requires o.welcomeAdd.writeOk
    ensures ModelCalls(HandleWebhook(store, form, prompt, cfg, o).trace) == 0
  {
    var key := KeyOf(form);
    HandleNewSender(store, form, prompt, cfg, o);
    WelcomeModelCalls(store, key, BodyOf(form), prompt, cfg, o);
    ModelCallsAppend([Fetch(key)], Welcome(store, key, BodyOf(form), prompt, cfg, o).trace);
  }

  /** A failed history load is indistinguishable from a new sender: with the
      welcome save working, even a sender with a stored transcript is
      answered as a new user and gets the welcome text appended. */
  lemma FailedLoadLooksNew(store: Store, form: Option<Form>, prompt: string, cfg: TwilioConfig, o: Oracle)
    requires ParseForm(form).Ok? && !o.historyReadOk
    requires o.welcomeAdd.readOk && o.welcomeAdd.writeOk
    ensures var h := HandleWebhook(store, form, prompt, cfg, o);
            && h.response == Processed(WelcomeProcessed, Some(true))
            && Stored(h.store, KeyOf(form)) == Stored(store, KeyOf(form)) + [NewMessage(Assistant, WelcomeMessage, o.welcomeAdd.now)]
  {
    HandleNewSender(store, form, prompt, cfg, o);
    WelcomeSaved(store, KeyOf(form), BodyOf(form), prompt, cfg, o);
  }

  /** When the welcome save fails the request becomes a normal turn with an
      empty history: after the three loads and saves so far, the model sees
      the system prompt alone, not even the message it is answering. */
  lemma WelcomeFailureFallsThrough(store: Store, form: Option<Form>, prompt: string, cfg: TwilioConfig, o: Oracle)
    requires ParseForm(form).Ok? && GetHistory(store, KeyOf(form), o.historyReadOk) == []
    requires !o.welcomeAdd.writeOk && o.userAdd.writeOk
    ensures var h := HandleWebhook(store, form, prompt, cfg, o);
            |h.trace| > 5 && h.trace[5] == Complete([ChatTurn(System, prompt)])
  {
    var key, body := KeyOf(form), BodyOf(form);
    HandleNewSender(store, form, prompt, cfg, o);
    WelcomeFallsThrough(store, key, body, prompt, cfg, o);
    var w := Welcome(store, key, body, prompt, cfg, o);
    var c := Converse(store, key, body, [], prompt, cfg, o);
    ConverseAsksModel(store, key, body, [], prompt, cfg, o);
    ModelInputOfNone(prompt);
    var h := HandleWebhook(store, form, prompt, cfg, o);
    assert h.trace == [Fetch(key)] + w.trace;
    assert w.trace == [Fetch(key), Save(key, AddedList(store, key, Assistant, WelcomeMessage, o.welcomeAdd), false)] + c.trace;
    assert h.trace[5] == w.trace[4] == c.trace[2];
  }

  lemma ModelInputOfNone(prompt: string)
    ensures ModelInput(prompt, []) == [ChatTurn(System, prompt)]
  {
  }

  /** A known sender's turn with every store call working appends the user
      message and then the reply to the transcript. */
  lemma KnownSenderTranscript(store: Store, form: Option<Form>, prompt: string, cfg: TwilioConfig, o: Oracle)
    requires ParseForm(form).Ok? && o.historyReadOk && Stored(store, KeyOf(form)) != []
    requires o.userAdd.readOk && o.userAdd.writeOk && o.assistantAdd.readOk && o.assistantAdd.writeOk
    ensures Stored(HandleWebhook(store, form, prompt, cfg, o).store, KeyOf(form))
              == Stored(store, KeyOf(form)) + [NewMessage(User, BodyOf(form), o.userAdd.now), NewMessage(Assistant, o.reply, o.assistantAdd.now)]
  {
    HandleKnownSender(store, form, prompt, cfg, o);
    ConverseTranscript(store, KeyOf(form), BodyOf(form), Stored(store, KeyOf(form)), prompt, cfg, o);
  }

  /** A known sender's turn asks the model with the history loaded before
      the user message was saved, as the fourth call of the request. */
  lemma KnownSenderAsksModel(store: Store, form: Option<Form>, prompt: string, cfg: TwilioConfig, o: Oracle)
    requires ParseForm(form).Ok? && o.historyReadOk && Stored(store, KeyOf(form)) != []
    requires o.userAdd.writeOk
    ensures var h := HandleWebhook(store, form, prompt, cfg, o);
            |h.trace| > 3 && h.trace[3] == Complete(ModelInput(prompt, Stored(store, KeyOf(form))))
  {
    HandleKnownSender(store, form, prompt, cfg, o);
    ConverseAsksModel(store, KeyOf(form), BodyOf(form), Stored(store, KeyOf(form)), prompt, cfg, o);
  }

  /** A known sender's turn with both saves working answers 200 exactly when
      the reply passes the credential checks and is delivered, 500
      otherwise. */
  lemma KnownSenderStatus(store: Store, form: Option<Form>, prompt: string, cfg: TwilioConfig, o: Oracle)
    requires ParseForm(form).Ok? && GetHistory(store, KeyOf(form), o.historyReadOk) != []
    requires o.userAdd.writeOk && o.assistantAdd.writeOk
    ensures var h := HandleWebhook(store, form, prompt, cfg, o);
            && (Status(h.response) == 200 <==> Respond(cfg, KeyOf(form), o.reply, None, o.replyNetworkOk).Ok?)
            && (Status(h.response) != 200 ==> h.response == HttpError(500, InternalError))
  {
    var key := KeyOf(form);
    HandleKnownSender(store, form, prompt, cfg, o);
    ConverseSucceeds(store, key, BodyOf(form), GetHistory(store, key, o.historyReadOk), prompt, cfg, o);
    ConverseFrame(store, key, BodyOf(form), GetHistory(store, key, o.historyReadOk), prompt, cfg, o);
  }

  /** When the history load and every add's load succeed, a request never
      removes or rewrites what the sender's transcript already held. */
  lemma AppendOnlyWhenLoadsSucceed(store: Store, form: Option<Form>, prompt: string, cfg: TwilioConfig, o: Oracle)
    requires ParseForm(form).Ok? && o.historyReadOk
    requires o.welcomeAdd.readOk && o.userAdd.readOk && o.assistantAdd.readOk
    ensures Stored(store, KeyOf(form)) <= Stored(HandleWebhook(store, form, prompt, cfg, o).store, KeyOf(form))
  {
    var key := KeyOf(form);
    if GetHistory(store, key, o.historyReadOk) == [] {
      HandleNewSender(store, form, prompt, cfg, o);
      WelcomeExtends(store, key, BodyOf(form), prompt, cfg, o);
    } else {
      HandleKnownSender(store, form, prompt, cfg, o);
      ConverseExtends(store, key, BodyOf(form), GetHistory(store, key, o.historyReadOk), prompt, cfg, o);
    }
  }

  /** A known sender whose user add cannot load the history loses the
      stored transcript: whatever its length, afterwards it holds at most the
      two messages of this turn. */
  lemma FailedAddLoadLosesTranscript(store: Store, form: Option<Form>, prompt: string, cfg: TwilioConfig, o: Oracle)
    requires ParseForm(form).Ok? && GetHistory(store, KeyOf(form), o.historyReadOk) != []
    requires !o.userAdd.readOk && o.userAdd.writeOk
    ensures |Stored(HandleWebhook(store, form, prompt, cfg, o).store, KeyOf(form))| <= 2
  {
    HandleKnownSender(store, form, prompt, cfg, o);
    ConverseAfterFailedUserLoad(store, KeyOf(form), BodyOf(form), GetHistory(store, KeyOf(form), o.historyReadOk), prompt, cfg, o);
  }

  /** A new sender's second message is answered with the welcome text as
      the only history: the first message, never stored, is not part of the
      conversation the model sees. */
  lemma FirstTwoMessages(store: Store, first: Option<Form>, second: Option<Form>, prompt: string,
                         cfg: TwilioConfig, o1: Oracle, o2: Oracle)
    requires ParseForm(first).Ok? && ParseForm(second).Ok? && KeyOf(first) == KeyOf(second)
    requires KeyOf(first) !in store && o1.welcomeAdd.writeOk
    requires o2.historyReadOk && o2.userAdd.writeOk
    ensures var h := HandleWebhook(HandleWebhook(store, first, prompt, cfg, o1).store, second, prompt, cfg, o2);
            |h.trace| > 3 && h.trace[3] == Complete([ChatTurn(System, prompt), ChatTurn(Assistant, WelcomeMessage)])
  {
    var after := HandleWebhook(store, first, prompt, cfg, o1).store;
    NewSenderGetsWelcome(store, first, prompt, cfg, o1);
    var greeting := NewMessage(Assistant, WelcomeMessage, o1.welcomeAdd.now);
    GreetedSenderAsksModel(after, second, prompt, cfg, o2, greeting);
  }

  /** A sender whose transcript is a single message has the model see that
      message alone after the system prompt. */
  lemma GreetedSenderAsksModel(store: Store, form: Option<Form>, prompt: string, cfg: TwilioConfig, o: Oracle, only: Message)
    requires ParseForm(form).Ok? && Stored(store, KeyOf(form)) == [only]
    requires o.historyReadOk && o.userAdd.writeOk
    ensures var h := HandleWebhook(store, form, prompt, cfg, o);
            |h.trace| > 3 && h.trace[3] == Complete([ChatTurn(System, prompt), TurnOf(only)])
  {
    KnownSenderAsksModel(store, form, prompt, cfg, o);
    ModelInputOfOne(prompt, only);
  }

  lemma ModelInputOfOne(prompt: string, only: Message)
    ensures ModelInput(prompt, [only]) == [ChatTurn(System, prompt), TurnOf(only)]
  {
    var input := ModelInput(prompt, [only]);
    assert |input| == 2 && input[1] == TurnOf(only);
  }

  /** A reply that cannot be delivered turns the request into a 500 although
      both messages of the turn are already stored. */
  lemma DeliveryFailureAfterSaves(store: Store, form: Option<Form>, prompt: string, cfg: TwilioConfig, o: Oracle)
    requires ParseForm(form).Ok? && o.historyReadOk && Stored(store, KeyOf(form)) != []
    requires o.userAdd.readOk && o.userAdd.writeOk && o.assistantAdd.readOk && o.assistantAdd.writeOk
    requires !o.replyNetworkOk
    ensures var h := HandleWebhook(store, form, prompt, cfg, o);
            && h.response == HttpError(500, InternalError)
            && Stored(h.store, KeyOf(form))
                 == Stored(store, KeyOf(form)) + [NewMessage(User, BodyOf(form), o.userAdd.now), NewMessage(Assistant, o.reply, o.assistantAdd.now)]
  {
    KnownSenderStatus(store, form, prompt, cfg, o);
    KnownSenderTranscript(store, form, prompt, cfg, o);
  }
}

=== FILE: whatsapp.dfy ===
/** The outbound sender (`respond`, backend/src/utils/whatsapp.py): the
    configuration checks, the cleaning and formatting of the destination
    number, and the choice of message payload. The Twilio client and its
    network call are replaced by a delivery oracle. */
module WhatsApp {
  import opened Wrappers
  import opened Text
  import opened Phone

  const ChannelPrefix: string := "whatsapp:"

  const AccountSidVar: string := "TWILIO_ACCOUNT_SID"
  const AuthTokenVar: string := "TWILIO_AUTH_TOKEN"
  const NumberVar: string := "TWILIO_WHATSAPP_NUMBER"

  /** The variables checked at import, in the order they are checked. */
  const RequiredVars: seq<string> := [AccountSidVar, AuthTokenVar, NumberVar]

  /** The process environment. */
  type Env = map<string, string>

  /** `os.getenv(name)`, with an unset variable read as the empty string:
      both are rejected alike by the `not value` checks. */
  function EnvValue(env: Env, name: string): string {
    if name in env then env[name] else ""
  }

  datatype TwilioConfig = TwilioConfig(accountSid: string, authToken: string, whatsappNumber: string)

  datatype ConfigError = MissingVariable(name: string) | BadSenderNumber(number: string)

  /** The position of the first variable of `names` that is unset or empty. */
  function FirstMissing(env: Env, names: seq<string>): (r: Option<nat>)
    ensures r.None? <==> forall i :: 0 <= i < |names| ==> EnvValue(env, names[i]) != ""
    ensures r.Some? ==> && r.value < |names|
                        && EnvValue(env, names[r.value]) == ""
                        && forall j :: 0 <= j < r.value ==> EnvValue(env, names[j]) != ""
  {
    if names == [] then None
    else if EnvValue(env, names[0]) == "" then Some(0)
    else
      match FirstMissing(env, names[1..])
      case None => None
      case Some(i) => Some(i + 1)
  }

  /** The sender number must be a US or a Mexican number in `+` form. */
  predicate ValidSenderNumber(number: string) {
    StartsWith(number, "+1") || StartsWith(number, "+52")
  }

  /** The import-time configuration: every required variable set and
      non-empty, checked in order, then the sender number's prefix. */
  function LoadConfig(env: Env): (r: Result<TwilioConfig, ConfigError>)
    ensures r.Ok? <==> && EnvValue(env, AccountSidVar) != ""
                       && EnvValue(env, AuthTokenVar) != ""
                       && EnvValue(env, NumberVar) != ""
                       && ValidSenderNumber(EnvValue(env, NumberVar))
    ensures r.Ok? ==> r.value == TwilioConfig(EnvValue(env, AccountSidVar), EnvValue(env, AuthTokenVar), EnvValue(env, NumberVar))
    ensures r.Err? && r.error.MissingVariable? ==>
              exists i :: && 0 <= i < |RequiredVars|
                          && RequiredVars[i] == r.error.name
                          && EnvValue(env, RequiredVars[i]) == ""
                          && forall j :: 0 <= j < i ==> EnvValue(env, RequiredVars[j]) != ""
    ensures r.Err? && r.error.BadSenderNumber? ==> r.error.number == EnvValue(env, NumberVar) != ""
    ensures r.Err? ==> (r.error.MissingVariable? <==> FirstMissing(env, RequiredVars).Some?)
  {
    match FirstMissing(env, RequiredVars)
    case Some(i) => Err(MissingVariable(RequiredVars[i]))
    case None =>
      assert EnvValue(env, RequiredVars[2]) != "";
      var number := EnvValue(env, NumberVar);
      if !ValidSenderNumber(number) then Err(BadSenderNumber(number))
      else
        assert EnvValue(env, RequiredVars[0]) != "" && EnvValue(env, RequiredVars[1]) != "";
        Ok(TwilioConfig(EnvValue(env, AccountSidVar), EnvValue(env, AuthTokenVar), number))
  }

  /** The destination with the channel prefix removed, leading `+` signs
      stripped and all whitespace deleted, in that order. */
  function CleanNumber(to: string): (n: string)
    ensures AllSatisfy(n, NotSpace)
    ensures |n| <= |to|
  {
    RemoveSpaces(TrimLeft(RemoveAll(to, ChannelPrefix), IsPlus))
  }

  /** Cleaning never loses, adds or reorders a digit: the digits of the
      cleaned number are the digits of the raw destination. */
  lemma CleanKeepsDigits(to: string)
    ensures Digits(CleanNumber(to)) == Digits(to)
  {
    var a := RemoveAll(to, ChannelPrefix);
    PrefixHasNoDigits();
    RemoveAllKeepsDigits(to, ChannelPrefix);
    PlusIsNoDigit();
    TrimLeftFilter(a, IsPlus, IsDigit);
    RemoveSpacesKeepsDigits(TrimLeft(a, IsPlus));
  }

  lemma PlusIsNoDigit()
    ensures forall c :: IsPlus(c) ==> !IsDigit(c)
  {
  }

  lemma PrefixHasNoDigits()
    ensures Digits(ChannelPrefix) == []
  {
    assert forall i :: 0 <= i < |ChannelPrefix| ==> !IsDigit(ChannelPrefix[i]);
    FilterNone(ChannelPrefix, IsDigit);
  }

  /** Whitespace is deleted only after the `+` signs are stripped, so a `+`
      behind leading whitespace survives, and the destination then carries
      the country code and a second `+`. */
  lemma SpaceBeforePlusSurvives(d: string)
    requires AllSatisfy(d, IsDigit)
    ensures CleanNumber(" +" + d) == "+" + d
    ensures FormatDestination(" +" + d) == ChannelPrefix + "+" + CountryCode + "+" + d
  {
    var raw := " +" + d;
    SpacePlusKept(d);
    assert TrimLeft(raw, IsPlus) == raw;
    SpaceDropped(d);
    var n := CleanNumber(raw);
    assert n == "+" + d;
    PlusLacksCountryCode(n);
    FormatCountryCode(raw);
    assert ChannelPrefix + "+" + CountryCode + n == ChannelPrefix + "+" + CountryCode + "+" + d;
  }

  lemma PlusLacksCountryCode(n: string)
    requires n != [] && n[0] == '+'
    ensures !StartsWith(n, CountryCode)
  {
    if |CountryCode| <= |n| {
      assert n[..|CountryCode|][0] != CountryCode[0];
    }
  }

  lemma SpacePlusKept(d: string)
    requires AllSatisfy(d, IsDigit)
    ensures RemoveAll(" +" + d, ChannelPrefix) == " +" + d
  {
    var raw := " +" + d;
    forall i | 0 <= i < |raw| ensures NotPrefixStart(raw[i]) {
      if i >= 2 {
        assert raw[i] == d[i - 2];
      }
    }
    NoPrefixStartKept(raw);
  }

  lemma SpaceDropped(d: string)
    requires AllSatisfy(d, IsDigit)
    ensures RemoveSpaces(" +" + d) == "+" + d
  {
    var plusD := "+" + d;
    assert (" +" + d)[1..] == plusD;
    forall i | 0 <= i < |plusD| ensures NotSpace(plusD[i]) {
      if i >= 1 {
        assert plusD[i] == d[i - 1];
      }
    }
    FilterKeepsAll(plusD, NotSpace);
  }

  /** `whatsapp:+` followed by the cleaned number, which gets the country code
      in front unless it already starts with it. */
  function FormatDestination(to: string): string {
    var n := CleanNumber(to);
    ChannelPrefix + "+" + (if StartsWith(n, CountryCode) then n else CountryCode + n)
  }

  /** Every formatted destination is `whatsapp:+` and the country code,
      with no whitespace after the `+`. */
  lemma FormatShape(to: string)
    ensures StartsWith(FormatDestination(to), ChannelPrefix + "+" + CountryCode)
    ensures AllSatisfy(FormatDestination(to)[|ChannelPrefix + "+"|..], NotSpace)
  {
    var n := CleanNumber(to);
    var number := if StartsWith(n, CountryCode) then n else CountryCode + n;
    var head := ChannelPrefix + "+";
    if !StartsWith(n, CountryCode) {
      CountryCodeShape(n);
    }
    StartsWithAppend(head, number, CountryCode);
    assert (head + number)[|head|..] == number;
  }

  lemma CountryCodeShape(n: string)
    requires AllSatisfy(n, NotSpace)
    ensures StartsWith(CountryCode + n, CountryCode)
    ensures AllSatisfy(CountryCode + n, NotSpace)
  {
    assert (CountryCode + n)[..|CountryCode|] == CountryCode;
    assert AllSatisfy(CountryCode, NotSpace) by {
      assert CountryCode[0] == '5' && CountryCode[1] == '2';
    }
    AllSatisfyAppend(CountryCode, n, NotSpace);
  }

  /** The country code is added exactly when the cleaned number lacks it. */
  lemma FormatCountryCode(to: string)
    ensures var n := CleanNumber(to);
            && (StartsWith(n, CountryCode) ==> FormatDestination(to) == ChannelPrefix + "+" + n)
            && (!StartsWith(n, CountryCode) ==> FormatDestination(to) == ChannelPrefix + "+" + CountryCode + n)
  {
  }

  /** A conversation key, bare or already in channel form, is passed through
      unchanged: the formatted destination is `whatsapp:+` and the key. */
  lemma FormatKey(k: string)
    requires IsKey(k)
    ensures FormatDestination(k) == ChannelPrefix + "+" + k
    ensures FormatDestination(ChannelPrefix + "+" + k) == ChannelPrefix + "+" + k
  {
    CleanKey(k);
    CleanFramedKey(k);
  }

  /** Cleaning strips the channel form off a conversation key. */
  lemma CleanFramedKey(k: string)
    requires IsKey(k)
    ensures CleanNumber(ChannelPrefix + "+" + k) == k
  {
    CleanKey(k);
    var plusK := "+" + k;
    assert ChannelPrefix + "+" + k == ChannelPrefix + plusK;
    RemoveAllLeading(ChannelPrefix, plusK);
    PlusKeyKept(k);
    assert plusK[1..] == k;
  }

  lemma PlusKeyKept(k: string)
    requires IsKey(k)
    ensures RemoveAll("+" + k, ChannelPrefix) == "+" + k
  {
    var plusK := "+" + k;
    forall i | 0 <= i < |plusK| ensures NotPrefixStart(plusK[i]) {
      if i > 0 {
        assert plusK[i] == k[i - 1];
        assert IsDigit(k[i - 1]);
      }
    }
    NoPrefixStartKept(plusK);
  }

  /** The character is not the one the channel prefix starts with. */
  predicate NotPrefixStart(c: char) { c != ChannelPrefix[0] }

  /** A string without the first character of the channel prefix holds no
      occurrence of it and is not changed by its removal. */
  lemma NoPrefixStartKept(s: string)
    requires AllSatisfy(s, NotPrefixStart)
    ensures RemoveAll(s, ChannelPrefix) == s
  {
    assert forall i :: 0 <= i < |s| ==> s[i] != ChannelPrefix[0];
  }

  /** Cleaning leaves a conversation key as it is. */
  lemma {:induction false} CleanKey(k: string)
    requires IsKey(k)
    ensures CleanNumber(k) == k
    ensures TrimLeft(k, IsPlus) == k
  {
    assert k[..2] == "52";
    assert k[0] == '5';
    assert AllSatisfy(k, NotPrefixStart) by {
      forall i | 0 <= i < |k| ensures NotPrefixStart(k[i]) {
        assert IsDigit(k[i]);
      }
    }
    NoPrefixStartKept(k);
    assert AllSatisfy(k, NotSpace) by {
      forall i | 0 <= i < |k| ensures NotSpace(k[i]) {
        assert IsDigit(k[i]);
      }
    }
    FilterKeepsAll(k, NotSpace);
  }

  /** The removal is a single pass: a channel prefix split around another
      one survives cleaning, so the number part of the destination can still
      contain `whatsapp:`. */
  lemma FormatSinglePass(raw: string)
    requires raw == ChannelPrefix[..5] + ChannelPrefix + ChannelPrefix[5..]
    ensures CleanNumber(raw) == ChannelPrefix
    ensures FormatDestination(raw) == ChannelPrefix + "+" + CountryCode + ChannelPrefix
  {
    PrefixSurvivesRemoval(raw);
    PrefixSurvivesTrim();
    PrefixLacksCountryCode();
    FormatCountryCode(raw);
  }

  lemma PrefixLacksCountryCode()
    ensures !StartsWith(ChannelPrefix, CountryCode)
  {
    assert ChannelPrefix[0] == 'w';
  }

  lemma PrefixSurvivesRemoval(raw: string)
    requires raw == ChannelPrefix[..5] + ChannelPrefix + ChannelPrefix[5..]
    ensures RemoveAll(raw, ChannelPrefix) == ChannelPrefix
  {
    assert forall k :: 0 < k < |ChannelPrefix| ==> ChannelPrefix[k] != ChannelPrefix[0];
    RemoveAllSinglePass(ChannelPrefix, 5);
  }

  lemma PrefixSurvivesTrim()
    ensures RemoveSpaces(TrimLeft(ChannelPrefix, IsPlus)) == ChannelPrefix
  {
    assert AllSatisfy(ChannelPrefix, NotSpace);
    FilterKeepsAll(ChannelPrefix, NotSpace);
  }

  /** The message handed to the Twilio client. */
  datatype Payload = Payload(sender: string, to: string, body: Option<string>, mediaUrls: Option<seq<string>>)

  datatype SendError = MissingCredential(name: string) | DeliveryFailed

  /** `if media_url:` - present and non-empty. */
  predicate HasMedia(mediaUrl: Option<string>) {
    mediaUrl.Some? && mediaUrl.value != ""
  }

  /** The credential checks of `respond`, in order, and the payload it builds:
      sender in channel form, formatted destination, and either the media URL
      or the text body, never both. */
  function BuildPayload(cfg: TwilioConfig, to: string, message: string, mediaUrl: Option<string>): (r: Result<Payload, SendError>)
    ensures r.Ok? <==> cfg.accountSid != "" && cfg.authToken != "" && cfg.whatsappNumber != ""
    ensures r.Err? ==> && r.error.MissingCredential?
                       && (r.error.name == AccountSidVar <==> cfg.accountSid == "")
                       && (r.error.name == AuthTokenVar <==> cfg.accountSid != "" && cfg.authToken == "")
                       && (r.error.name == NumberVar <==> cfg.accountSid != "" && cfg.authToken != "")
    ensures r.Ok? ==> && r.value.sender == ChannelPrefix + cfg.whatsappNumber
                      && r.value.to == FormatDestination(to)
                      && (r.value.mediaUrls.Some? <==> r.value.body.None?)
                      && (HasMedia(mediaUrl) ==> r.value.mediaUrls == Some([mediaUrl.value]))
                      && (!HasMedia(mediaUrl) ==> r.value.body == Some(message))
  {
    if cfg.accountSid == "" then Err(MissingCredential(AccountSidVar))
    else if cfg.authToken == "" then Err(MissingCredential(AuthTokenVar))
    else if cfg.whatsappNumber == "" then Err(MissingCredential(NumberVar))
    else
      var sender := ChannelPrefix + cfg.whatsappNumber;
      var dest := FormatDestination(to);
      if HasMedia(mediaUrl) then Ok(Payload(sender, dest, None, Some([mediaUrl.value])))
      else Ok(Payload(sender, dest, Some(message), None))
  }

  /** `respond`: builds the payload and hands it to the network, whose
      success is the oracle `networkOk`; any failure is raised. */
  function Respond(cfg: TwilioConfig, to: string, message: string, mediaUrl: Option<string>, networkOk: bool): (r: Result<Payload, SendError>)
    ensures r.Ok? <==> BuildPayload(cfg, to, message, mediaUrl).Ok? && networkOk
    ensures r.Ok? ==> r == BuildPayload(cfg, to, message, mediaUrl)
    ensures BuildPayload(cfg, to, message, mediaUrl).Ok? && !networkOk ==> r == Err(DeliveryFailed)
    ensures BuildPayload(cfg, to, message, mediaUrl).Err? ==> r == BuildPayload(cfg, to, message, mediaUrl)
  {
    match BuildPayload(cfg, to, message, mediaUrl)
    case Err(e) => Err(e)
    case Ok(p) => if networkOk then Ok(p) else Err(DeliveryFailed)
  }

  /** A configuration that loaded passes every credential check of `respond`,
      and its sender is a `+1` or `+52` number in channel form. */
  lemma LoadedConfigSends(env: Env, to: string, message: string, mediaUrl: Option<string>)
    requires LoadConfig(env).Ok?
    ensures var p := BuildPayload(LoadConfig(env).value, to, message, mediaUrl);
            && p.Ok?
            && (StartsWith(p.value.sender, ChannelPrefix + "+1") || StartsWith(p.value.sender, ChannelPrefix + "+52"))
  {
    var cfg := LoadConfig(env).value;
    var sender := ChannelPrefix + cfg.whatsappNumber;
    assert sender[|ChannelPrefix|..] == cfg.whatsappNumber;
    if StartsWith(cfg.whatsappNumber, "+1") {
      assert sender[..|ChannelPrefix| + 2] == ChannelPrefix + cfg.whatsappNumber[..2];
    } else {
      assert sender[..|ChannelPrefix| + 3] == ChannelPrefix + cfg.whatsappNumber[..3];
    }
  }
}

=== FILE: wrappers.dfy ===
/** Failure-carrying values shared by every module of the model. */
module Wrappers {

  /** A value that may be absent (Python's `None`). */
  datatype Option<+T> = None | Some(value: T)

  /** The outcome of an operation that either returns a value or raises. */
  datatype Result<+T, +E> = Ok(value: T) | Err(error: E)
}
